=== FILE: README.md ===
# Amazon product scraper — extraction core in Dafny

This project models the scraping service of a product-comparison web
application. Given a product URL, the service asks a crawling API for the
product pages. It turns every crawled page into a product record using a set
of regular-expression field extractors:

- title, price, rating, number of ratings and discount;
- bank offers and "about this item" bullets;
- the specification table;
- product images and manufacturer images;
- a short review summary.

It drops records that lack basic information. When the API key is missing,
the crawl fails or no record survives, it returns a hard-coded catalog of
two televisions instead.

The regular expressions are not interpreted. Every pattern of the service
is a constructor of `Patterns.Pattern` or `Patterns.GlobalPattern`. An
`Engine` value supplies three things as parameters:
- its first match;
- its global matches;
- the number parsing of `parseFloat(x).toString()`.

Every contract holds for every engine. Everything around the matches is
modelled concretely, as the service's JavaScript evaluates it:
- the order in which strategies are tried, and which one wins;
- the truthiness tests;
- `trim`, `includes`, `split`, `join`, tag stripping and de-duplication;
- UTF-16 `length` floors;
- object-key assignment;
- the fallback.

Modules, in dependency order:

- `Combinators` — `Option` and the "first strategy that succeeds" combinator (`FirstSome`), plus order-preserving `Filter`, `Map`, `Subsequence` and `NoDuplicates`.
- `Strings` — JavaScript string operations:
  - UTF-16 length;
  - `includes`;
  - `trim` over the ECMAScript white-space set;
  - `replace(/<[^>]*>/g, …)` and `replace(/<[^>]+>/g, …)`;
  - `split` on literal alternations and on `/\.\s*/`;
  - `join`;
  - ASCII `toLowerCase`.
- `Patterns` — the named patterns, the engine, the pattern lists, and the "labelled section" capture `section && section[1]`.
- `Records` — page metadata, the product record, the sentinel strings, and the record shape `WellFormed`.
- `Catalog` and `CatalogShape` — the two hard-coded fallback records, and the proof that they are well formed.
- `Scalars`, `Lists`, `ProductInfo`, `Images`, `Reviews` — the field extractors.
- `Scraper` — record assembly, the validity filter and the fallback.

## Model

All source paths below are `server/services/scraperService.js`.

| member | source | states |
|---|---|---|
| Combinators.FirstSome | server/services/scraperService.js:104-116 | Trying strategies in order yields nothing exactly when all fail. Otherwise it yields the value of some strategy, the head's when the head succeeds, else the answer for the rest. |
| Combinators.FirstSomeIsFirst | server/services/scraperService.js:128-137 | The first strategy that succeeds decides, whatever the later ones yield. |
| Combinators.Filter | server/services/scraperService.js:472-475 | `filter` keeps exactly the elements that pass, in their original order (a subsequence). It yields an empty list exactly when no element passes. |
| Combinators.FilterMultiplicity | server/services/scraperService.js:472-475 | Every element that passes the filter keeps all of its occurrences: the result holds it as many times as the input does. |
| Combinators.FilterAppend | server/services/scraperService.js:199 | Filtering a concatenation is concatenating the filtered parts, so appending per-section results keeps section order. |
| Combinators.FilterKeepsAll | server/services/scraperService.js:472-475 | A filter that every element passes returns the list unchanged. |
| Combinators.FilterKeepsMembers | server/services/scraperService.js:386 | Every element that passes the filter, looked up by value, is in the filtered list. |
| Strings.Utf16Length | server/services/scraperService.js:189 | The JavaScript `length` of a string lies between its code-point count and twice that. |
| Strings.ContainsIffOccurs | server/services/scraperService.js:189-197 | `includes` holds exactly when the searched text occurs at some position of the string. |
| Strings.Trim | server/services/scraperService.js:86 | `trim` returns the slice of its input that starts after the leading white space and is followed only by white space. The slice neither starts nor ends with white space, and it is empty exactly when the input is all white space. |
| Strings.TrimIdempotent | server/services/scraperService.js:86-87 | Trimming twice is trimming once. |
| Strings.ReplaceTags | server/services/scraperService.js:398 | Tag stripping leaves a text without `<` unchanged. It introduces no `>` when neither the text nor the replacement has one. With `<[^>]*>` and a bracket-free replacement, no complete tag is left. |
| Strings.ReplaceTagsKeepsText | server/services/scraperService.js:398 | Text before the first `<` survives tag replacement unchanged, in front of whatever the rest becomes. |
| Strings.ReplaceTagsDropsTag | server/services/scraperService.js:398 | A tag `<…>` (non-empty inside for the `+` variant) becomes exactly the replacement, and scanning resumes right after its `>`. |
| Strings.Cuts | server/services/scraperService.js:187 | `split` cuts at one separator occurrence fewer than it yields pieces. Each occurrence is non-empty, and with an alternation of literals each is one of those literals. |
| Strings.PeriodCutsShape | server/services/scraperService.js:399 | Every separator occurrence of `split(/\.\s*/)` is a period followed only by white space. |
| Strings.SplitRoundTrip | server/services/scraperService.js:301 | Nothing is lost by `split`, on an alternation of literals or on `/\.\s*/`: putting the separator occurrences back between the pieces gives the original text. |
| Strings.SplitPiecesAvoidLiterals | server/services/scraperService.js:187 | No piece of a split on an alternation of literals contains any of the (non-empty) literals, and there are at most one more pieces than the text has characters. |
| Strings.SentencesHaveNoPeriod | server/services/scraperService.js:399 | No piece of `split(/\.\s*/)` contains a period. |
| Strings.SentenceCount | server/services/scraperService.js:399 | `split(/\.\s*/)` yields exactly one piece more than the text has periods. |
| Strings.SentencesStartUnspaced | server/services/scraperService.js:399 | Every piece of `split(/\.\s*/)` after the first is empty or starts with a character that is not white space. |
| Strings.SplitPastSentence | server/services/scraperService.js:399 | A period-free text placed before another text joins the front of that text's first sentence and changes no other piece. |
| Strings.SplitAfterSeparator | server/services/scraperService.js:399-402 | `". "` in front of a text that does not start with white space splits off exactly one empty piece. |
| Strings.JoinOccurrences | server/services/scraperService.js:402 | Joining period-free pieces with `". "` yields one period per gap. |
| Scalars.ExtractTitle | server/services/scraperService.js:75-89 | The title is never empty. The metadata title wins, then the Open Graph title. "Unknown Product" results when every strategy fails, and only then or when a strategy itself yields that text. |
| Scalars.TitleMarkupBeatsText | server/services/scraperService.js:79-88 | Without metadata titles, a markup capture that trims to a non-empty text is the title, trimmed. No text pattern is consulted. |
| Scalars.TitleTextWhenNoMarkup | server/services/scraperService.js:83-88 | Without metadata titles and without a markup capture, the title is the trimmed capture of the first text pattern that matches, or "Unknown Product" when that pattern captures nothing or none matches. |
| Scalars.BlankHeadingHidesTitleElements | server/services/scraperService.js:79-88 | An `<h1>` whose text is only white space still wins the markup alternation. The `productTitle` id and `product-title` class patterns are then never used. |
| Scalars.CurrencyPrefix | server/services/scraperService.js:108-111 | The prefix is one of `₹`, `$`, `Rs.` or nothing. It is `₹` exactly when the matched text contains `₹`; `$` exactly when it contains `$` but no `₹`; `Rs.` exactly when it contains `RS` but neither symbol; otherwise nothing. |
| Scalars.LowercaseRupeeLabelGetsNoPrefix | server/services/scraperService.js:98-111 | The rupee-label test is case-sensitive. Matched text spelling "Rs." with no `₹`, `$` or capital `S` gets no currency prefix. |
| Scalars.PriceFromMatch | server/services/scraperService.js:104-113 | A price pattern contributes exactly when it matched with a non-empty group 1 or group 2. Its value is the prefix followed by that capture. |
| Scalars.ExtractPrice | server/services/scraperService.js:91-117 | The price is never empty. The metadata price wins. Without any capture the result is "Price unavailable". |
| Scalars.PriceFromFirstCapturingPattern | server/services/scraperService.js:93-113 | Without a metadata price, the first pattern in list order that captures digits decides. Its digits come back unchanged behind their prefix. |
| Scalars.RatingFromMatch | server/services/scraperService.js:128-134 | A rating pattern contributes exactly when its group 1 is non-empty and parses as a number. |
| Scalars.ExtractRating | server/services/scraperService.js:119-138 | The rating is never empty. The metadata rating wins. When no capture parses, the result is "No ratings". |
| Scalars.RatingFromFirstParsingPattern | server/services/scraperService.js:122-135 | A capture that does not parse falls through to the next pattern. The first capture that parses decides. |
| Scalars.ExtractNumRatings | server/services/scraperService.js:140-155 | The count is never empty. It is "0" when no pattern captures. Any other answer is the verbatim group 1 of some pattern. |
| Scalars.NumRatingsFromFirstCapturingPattern | server/services/scraperService.js:141-152 | The first count pattern with a capture decides, verbatim. |
| Scalars.DiscountFromMatch | server/services/scraperService.js:165-168 | A discount pattern contributes exactly when group 1 or group 2 is non-empty. Group 1 is preferred. |
| Scalars.ExtractDiscount | server/services/scraperService.js:157-172 | The discount is never empty. It is "No discount" when no pattern captures. |
| Scalars.DiscountFromFirstCapturingPattern | server/services/scraperService.js:158-169 | The first discount pattern with a capture decides, group 1 before group 2. |
| Lists.SectionKept | server/services/scraperService.js:184-199 | Filtering each labelled section's fragments and appending the survivors equals filtering all fragments in section order. |
| Lists.ExtractBankOffers | server/services/scraperService.js:174-221 | The offer list is never empty. It is exactly the section fragments and then the list items that pass, or, when none passes, the one-element sentinel list. |
| Lists.BankOffersPassFilter | server/services/scraperService.js:187-220 | Every returned offer, the sentinel included, passes the offer filter: longer than 5 and containing one of "bank", "credit", "debit", "card", "EMI", "cashback", "discount" or "offer". |
| Lists.SentinelIsOffer | server/services/scraperService.js:220 | The sentinel "No bank offers available" itself passes the offer filter. |
| Lists.SectionOffersPrecedeListOffers | server/services/scraperService.js:184-218 | Unless the answer is the sentinel list, offers found in labelled sections come first, in section order, followed by the offers found in list items. |
| Lists.FeatureListKept | server/services/scraperService.js:245-260 | Filtering each feature list's items and appending equals filtering all feature-list items at once. |
| Lists.ExtractAboutItem | server/services/scraperService.js:223-264 | The feature list is never empty and every entry is longer than 3. It is exactly the section fragments and then the feature-list items that pass, or else the sentinel list. |
| ProductInfo.Assign | server/services/scraperService.js:289 | Every key stored in the object comes from some written entry with its stored value, and is never `__proto__`. Every written key other than `__proto__` is stored. |
| ProductInfo.AssignLastWins | server/services/scraperService.js:289 | A key's stored value is the value of its last write. |
| ProductInfo.RowEntry | server/services/scraperService.js:283-291 | A table row yields an entry exactly when it has two or more cells and its first two cells, tags stripped and trimmed, form an acceptable pair: both non-empty and the key shorter than 100. The entry is that pair. |
| ProductInfo.LineEntry | server/services/scraperService.js:302-310 | A text line yields an entry exactly when the tag-stripped line matches with both groups non-empty and the trimmed groups form an acceptable pair: both non-empty, the key shorter than 100 and, in the whole-page tier, the value shorter than 500. The entry is the trimmed groups. |
| ProductInfo.ExtractProductInfo | server/services/scraperService.js:266-332 | No stored key is `__proto__`. Every entry is acceptable. The result is the table and section entries when they stored anything. Otherwise it is the whole-page entries, with values shorter than 500. |
| ProductInfo.LaterBatchWins | server/services/scraperService.js:289-308 | An entry of a later batch that is the last with its key decides that key, whatever an earlier batch wrote. |
| ProductInfo.SectionEntryOverridesTable | server/services/scraperService.js:298-312 | The section tier runs even after tables produced entries. Its last entry for a key overrides the table's value. |
| ProductInfo.PageLinesIgnoredAfterTableEntry | server/services/scraperService.js:316-330 | As soon as one table or section entry is stored, the whole-page tier is skipped. |
| Images.AppendNew | server/services/scraperService.js:344-355 | The scanning loop only appends: the list it starts from is a prefix of the result. |
| Images.AppendNewAdds | server/services/scraperService.js:346-354 | Every appended URL passes the filter, comes from the scanned URLs, and was not already in the list. |
| Images.AppendNewComplete | server/services/scraperService.js:346-354 | Every scanned URL that passes the filter is in the list afterwards. |
| Images.AppendNewInOrder | server/services/scraperService.js:344-355 | The appended URLs keep their scan order. |
| Images.AppendNewFirstSeenOrder | server/services/scraperService.js:344-355 | Every appended URL is one of the scanned URLs, and the appended URLs follow the order of their first occurrence in the scan. |
| Images.AppendNewNoDuplicates | server/services/scraperService.js:352-353 | Appending only unseen URLs keeps a duplicate-free list duplicate-free. |
| Images.ExtractProductImages | server/services/scraperService.js:334-358 | Every image URL is longer than 10. The result is the metadata images, then the scanned additions, each filtered in order. It is duplicate-free when the metadata images are. |
| Images.ScannedAdditionsAreNewAndAdmissible | server/services/scraperService.js:344-355 | Scanned additions are on the `amazon` host and are no icon, logo, sprite or tracking pixel. None repeats, and none is already among the metadata images. |
| Images.ScannedAdditionsInPageOrder | server/services/scraperService.js:344-355 | Scanned additions are image URLs of the page, in the order of their first occurrence on the page. Every acceptable scanned URL ends up in the list. |
| Images.ScanSection | server/services/scraperService.js:370-383 | One manufacturer section appends only acceptable URLs and keeps the list duplicate-free. |
| Images.ScanSectionsAdds | server/services/scraperService.js:369-384 | Across all manufacturer sections, only acceptable URLs are appended, and one shared list stays duplicate-free. |
| Images.ScanSectionsProvenance | server/services/scraperService.js:369-384 | Every URL the section loop appends was scanned from the body of one of the sections. |
| Images.ScanSectionsComplete | server/services/scraperService.js:369-384 | Every acceptable URL scanned from a present section is in the list after the loop. |
| Images.LongSectionUrlsKept | server/services/scraperService.js:386 | The length floor after the loop keeps every acceptable section URL longer than 10. |
| Images.ExtractManufacturerImages | server/services/scraperService.js:360-387 | Manufacturer images are duplicate-free, each is longer than 10 and none is decorative. All were appended by the section loop. |
| Images.ManufacturerImagesProvenance | server/services/scraperService.js:360-387 | Every manufacturer image was scanned from the body of a present manufacturer section. |
| Images.ManufacturerImagesComplete | server/services/scraperService.js:369-386 | Every acceptable URL longer than 10 scanned from a present manufacturer section is among the manufacturer images. |
| Reviews.CleanReview | server/services/scraperService.js:398 | A cleaned review body holds no complete tag. A body without `<` comes back only trimmed. |
| Reviews.CleanReviewReplacesTag | server/services/scraperService.js:398 | A tag between two tag-free texts becomes one space: the cleaned body is both texts around a space, trimmed. |
| Reviews.AbridgePeriods | server/services/scraperService.js:399-404 | A text without periods is returned as is. A text with periods becomes a summary ending in a period, holding one more period than the text but at most three. |
| Reviews.AbridgeSplitsBack | server/services/scraperService.js:399-404 | A summary of a text with periods splits back, on the same separator, into the two or three sentences it kept, followed by one empty piece. |
| Reviews.JoinedSentencesSplitBack | server/services/scraperService.js:402 | Period-free sentences, each after the first not starting with white space, joined with `". "` and closed by a period split back into themselves and one empty piece. |
| Reviews.SingleSentenceGainsStrayPeriod | server/services/scraperService.js:399-402 | One sentence closed by a period still splits in two. "Great TV." becomes "Great TV. .". |
| Reviews.SnippetSummary | server/services/scraperService.js:407-411 | A snippet summary exists exactly when the snippet pattern matches somewhere. |
| Reviews.GenerateReviewSummary | server/services/scraperService.js:389-414 | When some labelled review section has a body, the summary is that of such a section. Otherwise it is the first snippet's quoted text, or "No review summary available". |
| Reviews.FirstReviewSectionWins | server/services/scraperService.js:390-406 | The first labelled review section with a body decides the summary, whatever follows. |
| Scraper.AssembleProduct | server/services/scraperService.js:447-467 | Every assembled record passes the validity filter. Its link is the page URL, or the requested URL when the page has none. |
| Scraper.AssembledRecordWellFormed | server/services/scraperService.js:447-467 | Every assembled record is well formed. Its text fields are non-empty and its offer and feature lists are non-empty. Its specification keys are non-empty, shorter than 100 and hold non-empty values. Every image URL is longer than 10, and the manufacturer images are duplicate-free. |
| Scraper.AssembledRecordsUsable | server/services/scraperService.js:447-475 | Every record built from a crawl is well formed and passes the validity filter. |
| Scraper.ValidRecords | server/services/scraperService.js:472-475 | Every record that survives the validity filter has a title and a price, rating or image, and is well formed. |
| Scraper.FilterKeepsCrawl | server/services/scraperService.js:472-475 | The validity filter never drops an assembled record. |
| Scraper.ScrapeOutcome | server/services/scraperService.js:416-490 | Extracted records are non-empty, pass the validity filter and are well formed. |
| Scraper.FallbackReasons | server/services/scraperService.js:420-444 | The outcome falls back for a missing key exactly when the key is empty. It falls back for a failed crawl exactly when the key is set and the crawl failed, and for no pages exactly when the crawl succeeded without pages. |
| Scraper.ScrapeAmazonProduct | server/services/scraperService.js:416-490 | The answer is never empty and every record is well formed. It is the catalog on every fallback, and the surviving records otherwise. |
| Scraper.CrawledPagesAllReturned | server/services/scraperService.js:445-479 | With a key and a non-empty crawl, the answer is one record per page, in page order, each linked to its page. |
| Scraper.FallbackOnlyOnFailure | server/services/scraperService.js:420-489 | The outcome falls back if and only if the key is missing, the crawl failed, or the crawl has no pages, and the answer is then the catalog. The "no valid products" fallback never happens. |
| CatalogShape.MockTvDataWellFormed | server/services/scraperService.js:9-72 | The two-record fallback catalog has the same well-formed shape as extracted records. |

## Left out

- The crawling API call is left out, along with its options (a limit of 10 pages, markdown and HTML formats). The crawl result is the `Crawl` parameter. A thrown error and an unsuccessful response are both `Failed`.
- Reading `FIRECRAWL_API_KEY` through `dotenv` is left out. The effective key is the `apiKey` parameter, with "" for unset.
- Console logging is left out; it has no effect on results.
- `verifyApiKey` is left out, along with the HTTP controller, the routes and the web front end. They are not part of this model.
- Regular-expression semantics are left out. Each pattern is an uninterpreted oracle supplied by `Engine`, so no contract depends on what a pattern matches. Matching is assumed to be a function of the pattern and the text.
- Scalars.ExtractRating: `parseFloat(x)` and `toString()` are an oracle (`Engine.parseNumber`). Floating-point formatting is not modelled, only the promise that a parsed rating is a non-empty text.
- Metadata values are modelled as strings, with "" standing for any falsy value. A non-string truthy metadata value, such as a number, is returned by the source unchanged and is not modelled.
- `images` is modelled as present exactly when it is an array.
- Lists.IsFeatureList: `toLowerCase` is modelled for ASCII letters only. Other letters are left unchanged.
- Reviews.SnippetSummary: re-running the case-insensitive snippet pattern on the first global match and replacing it by `$1` is modelled as that match's group 1. This is what the replacement yields when the pattern matches the whole snippet from its start.
- Records.WellFormed: does not include the offer keyword test. The catalog offer "5% cash back with Amazon Pay ICICI Card" mentions none of the keywords case-sensitively, so the catalog would fail it. Extracted offers are shown to pass it by `Lists.BankOffersPassFilter`.

### Behaviour of the code worth noting

- The image length floor is strictly `length > 10`.
- The offer keyword test is case-sensitive: "Card" and "Bank" do not count.
- The specification-section tier of `extractProductInfo` always runs after the table tier, and overwrites keys the tables wrote. Only the whole-page tier is conditional on nothing having been stored.
- The validity filter tests truthiness (a non-empty title and a non-empty price, rating or image list). Every assembled record therefore passes (`Scraper.FilterKeepsCrawl`), and the "no valid product" fallback cannot be reached after a crawl that returned pages.
- The review summary may be "" when a review section's body is only tags and white space.

=== FILE: catalog.dfy ===
/** The hard-coded catalog the pipeline falls back to whenever it produces
    no real record. */
module Catalog {

  import opened Records

  /** The fallback catalog returned whenever no real record is produced. */
  const MockTvData: seq<Product> := [MockFireTv, MockTclTv]

  const MockFireTv := Product(
    "Amazon Fire TV 55\" Omni Series 4K UHD smart TV",
    "$399.99",
    "4.5",
    "12,345",
    "20% off",
    ["10% instant discount on SBI Credit Cards", "No cost EMI on select cards"],
    ["4K UHD resolution", "HDR 10, HLG, Dolby Digital Plus", "Hands-free Alexa built-in"],
    FireTvInfo,
    FireTvImages,
    FireTvManufacturerImages,
    "Users praise the picture quality and Alexa integration, but some mention the sound quality could be improved.",
    "https://www.amazon.com/dp/B08SVZ775L")

  const MockTclTv := Product(
    "TCL 55-inch Class 4-Series 4K UHD HDR Smart Roku TV",
    "$319.99",
    "4.6",
    "8,721",
    "15% off",
    ["5% cash back with Amazon Pay ICICI Card", "No cost EMI available"],
    ["4K Ultra HD Resolution", "Roku Smart TV Platform", "HDR Technology"],
    TclTvInfo,
    TclTvImages,
    TclTvManufacturerImages,
    "Customers love the value for money and easy Roku interface, though some note the viewing angles could be better.",
    "https://www.amazon.com/dp/B08DHFX4FV")

  const FireTvInfo: map<string, string> :=
    map["Brand" := "Amazon", "Model" := "Omni Series", "Screen Size" := "55 inches", "Resolution" := "4K UHD"]
  const FireTvImages: seq<string> :=
    ["https://m.media-amazon.com/images/I/61LjkJzZ8NL._AC_SX522_.jpg",
     "https://m.media-amazon.com/images/I/71qPGY1kFOL._AC_SX522_.jpg"]
  const FireTvManufacturerImages: seq<string> :=
    ["https://m.media-amazon.com/images/S/aplus-media-library-service-media/70608852-7a94-4ebb-a3da-e3c70e4c8e48._CR0,0,1464,625_PT0_SX1464__.jpg"]

  const TclTvInfo: map<string, string> :=
    map["Brand" := "TCL", "Model" := "4-Series", "Screen Size" := "55 inches", "Resolution" := "4K UHD"]
  const TclTvImages: seq<string> :=
    ["https://m.media-amazon.com/images/I/71RyRHZfRkL._AC_SX679_.jpg",
     "https://m.media-amazon.com/images/I/61GJoXzS5qL._AC_SX679_.jpg"]
  const TclTvManufacturerImages: seq<string> :=
    ["https://m.media-amazon.com/images/S/aplus-media-library-service-media/a7b8ac3c-d33a-4099-a6d9-f53a45e9411c._CR0,0,970,300_PT0_SX970__.jpg"]
}

=== FILE: catalog_shape.dfy ===
/** The shape of the fallback catalog: both hard-coded records are well
    formed, like every record the extractors assemble. */
module CatalogShape {

  import opened Records
  import opened Catalog

  /** Every specification key is short and non-empty with a non-empty value. */
  predicate ShortInfo(m: map<string, string>) {
    forall k :: k in m ==> 0 < |k| < 50 && m[k] != ""
  }

  /** Every URL is longer than 10 characters. */
  predicate LongUrls(urls: seq<string>) {
    forall i :: 0 <= i < |urls| ==> |urls[i]| > 10
  }

  // One literal per lemma keeps each proof small.
  lemma FireTvInfoShort() ensures ShortInfo(FireTvInfo) {}
  lemma FireTvImagesLong() ensures LongUrls(FireTvImages) {}
  lemma FireTvManufacturerImagesLong() ensures LongUrls(FireTvManufacturerImages) {}
  lemma TclTvInfoShort() ensures ShortInfo(TclTvInfo) {}
  lemma TclTvImagesLong() ensures LongUrls(TclTvImages) {}
  lemma TclTvManufacturerImagesLong() ensures LongUrls(TclTvManufacturerImages) {}

  lemma MockFireTvWellFormed()
    ensures WellFormed(MockFireTv)
  {
    FireTvInfoShort();
    FireTvImagesLong();
    FireTvManufacturerImagesLong();
    WellFormedByLengths(MockFireTv);
  }

  lemma MockTclTvWellFormed()
    ensures WellFormed(MockTclTv)
  {
    TclTvInfoShort();
    TclTvImagesLong();
    TclTvManufacturerImagesLong();
    WellFormedByLengths(MockTclTv);
  }

  /** The fallback catalog has the record shape the real pipeline promises,
      so a caller cannot tell it apart by shape. */
  lemma MockTvDataWellFormed()
    ensures |MockTvData| == 2
    ensures forall i :: 0 <= i < |MockTvData| ==> WellFormed(MockTvData[i])
  {
    MockFireTvWellFormed();
    MockTclTvWellFormed();
    assert MockTvData[0] == MockFireTv && MockTvData[1] == MockTclTv;
  }
}

=== FILE: combinators.dfy ===
/** Generic building blocks of the extraction pipeline: optional values, the
    "first strategy that succeeds" combinator, order-preserving filtering and
    duplicate-freedom of sequences. */
module Combinators {

  /** A value that a strategy may or may not produce. */
  datatype Option<+T> = None | Some(value: T) {

    /** The carried value, or `default` when there is none. */
    function GetOr(default: T): T {
      match this
      case Some(v) => v
      case None => default
    }
  }

  /** The position of the first candidate that is present, if any. */
  function FirstPresent<T>(cands: seq<Option<T>>): (r: Option<nat>)
    ensures r.Some? ==> r.value < |cands| && cands[r.value].Some?
    ensures r.Some? ==> forall j :: 0 <= j < r.value ==> cands[j].None?
    ensures r.None? ==> forall j :: 0 <= j < |cands| ==> cands[j].None?
    decreases |cands|
  {
    if |cands| == 0 then None
    else if cands[0].Some? then Some(0)
    else
      match FirstPresent(cands[1..])
      case None => None
      case Some(i) => Some(i + 1)
  }

  /** The first candidate that is present: strategies are tried in list order
      and the first one that yields a value decides. */
  function FirstSome<T>(cands: seq<Option<T>>): (r: Option<T>)
    ensures r.None? <==> forall j :: 0 <= j < |cands| ==> cands[j].None?
    ensures r.Some? ==> exists i :: 0 <= i < |cands| && cands[i] == r
    ensures |cands| > 0 && cands[0].Some? ==> r == cands[0]
    ensures |cands| > 0 && cands[0].None? ==> r == FirstSome(cands[1..])
  {
    match FirstPresent(cands)
    case None => None
    case Some(i) => cands[i]
  }

  /** The candidate at `i` decides when it is present and every earlier one
      is absent. */
  lemma FirstSomeIsFirst<T>(cands: seq<Option<T>>, i: nat)
    requires i < |cands| && cands[i].Some?
    requires forall j :: 0 <= j < i ==> cands[j].None?
    ensures FirstSome(cands) == cands[i]
  {
    var k := FirstPresent(cands).value;
    assert k == i;
  }

  /** `r` can be obtained from `s` by deleting elements: relative order is kept. */
  ghost predicate Subsequence<T>(r: seq<T>, s: seq<T>)
    decreases |s|
  {
    |r| == 0 ||
    (|s| > 0 && ((r[0] == s[0] && Subsequence(r[1..], s[1..])) || Subsequence(r, s[1..])))
  }

  /** The position of the first occurrence of `x` in `s`. */
  function FirstIndex<T(==)>(s: seq<T>, x: T): (n: nat)
    requires x in s
    ensures n < |s| && s[n] == x && x !in s[..n]
  {
    if s[0] == x then 0 else 1 + FirstIndex(s[1..], x)
  }

  /** No element occurs twice. */
  ghost predicate NoDuplicates<T>(s: seq<T>) {
    forall i, j :: 0 <= i < j < |s| ==> s[i] != s[j]
  }

  /** The elements of `s` that satisfy `keep`, in their original order
      (JavaScript's `Array.prototype.filter`). */
  function Filter<T>(s: seq<T>, keep: T -> bool): (r: seq<T>)
    ensures |r| <= |s|
    ensures forall i :: 0 <= i < |r| ==> r[i] in s && keep(r[i])
    ensures forall i :: 0 <= i < |s| && keep(s[i]) ==> s[i] in r
    ensures |r| == 0 <==> forall i :: 0 <= i < |s| ==> !keep(s[i])
    ensures Subsequence(r, s)
    decreases |s|
  {
    if |s| == 0 then []
    else if keep(s[0]) then [s[0]] + Filter(s[1..], keep)
    else Filter(s[1..], keep)
  }

  /** Every element that passes keeps all of its occurrences. */
  lemma {:induction false} FilterMultiplicity<T>(s: seq<T>, keep: T -> bool)
    ensures forall i :: 0 <= i < |s| && keep(s[i]) ==> multiset(Filter(s, keep))[s[i]] == multiset(s)[s[i]]
    decreases |s|
  {
    if |s| > 0 {
      FilterMultiplicity(s[1..], keep);
      assert s == [s[0]] + s[1..];
      forall i | 0 <= i < |s| && keep(s[i])
        ensures multiset(Filter(s, keep))[s[i]] == multiset(s)[s[i]]
      {
        if keep(s[0]) {
          assert Filter(s, keep) == [s[0]] + Filter(s[1..], keep);
        }
        if i > 0 {
          assert s[i] == s[1..][i - 1];
        }
        if s[i] != s[0] && !keep(s[0]) {
          assert multiset(s)[s[i]] == multiset(s[1..])[s[i]];
        }
      }
    }
  }

  /** An element other than the head is first found one place further on
      than in the tail. */
  lemma FirstIndexPastHead<T>(s: seq<T>, x: T)
    requires |s| > 0 && x in s[1..] && x != s[0]
    ensures x in s && FirstIndex(s, x) == 1 + FirstIndex(s[1..], x)
  {
  }

  /** Every kept element of `s`, found by value, survives the filter. */
  lemma FilterKeepsMembers<T>(s: seq<T>, keep: T -> bool)
    ensures forall x :: x in s && keep(x) ==> x in Filter(s, keep)
  {
    forall x | x in s && keep(x)
      ensures x in Filter(s, keep)
    {
      var i :| 0 <= i < |s| && s[i] == x;
    }
  }

  /** Filtering distributes over concatenation, so the filtered parts of a
      concatenation keep their relative order. */
  lemma {:induction false} FilterAppend<T>(a: seq<T>, b: seq<T>, keep: T -> bool)
    ensures Filter(a + b, keep) == Filter(a, keep) + Filter(b, keep)
    decreases |a|
  {
    if |a| == 0 {
      assert a + b == b;
    } else {
      assert (a + b)[1..] == a[1..] + b;
      FilterAppend(a[1..], b, keep);
    }
  }

  /** A filter every element passes changes nothing. */
  lemma {:induction false} FilterKeepsAll<T>(s: seq<T>, keep: T -> bool)
    requires forall i :: 0 <= i < |s| ==> keep(s[i])
    ensures Filter(s, keep) == s
    decreases |s|
  {
    if |s| > 0 {
      FilterKeepsAll(s[1..], keep);
      assert [s[0]] + s[1..] == s;
    }
  }

  /** Applies `f` to every element (JavaScript's `Array.prototype.map`). */
  function Map<T, U>(s: seq<T>, f: T -> U): (r: seq<U>)
    ensures |r| == |s|
    ensures forall i :: 0 <= i < |s| ==> r[i] == f(s[i])
  {
    seq(|s|, i requires 0 <= i < |s| => f(s[i]))
  }
}

=== FILE: images.dfy ===
/** The two image extractors. Both scan `<img src="...">` URLs, skip
    decorative ones, append each URL not seen before in first-seen order,
    and finally keep only URLs longer than 10 UTF-16 units. Product images
    are seeded from the metadata and must be hosted on the shop's image
    host; manufacturer images come only from the manufacturer sections. */
module Images {

  import opened Combinators
  import opened Strings
  import opened Patterns
  import opened Records

  /** A scanned URL worth keeping: not an icon, logo, sprite or tracking
      pixel and, when `requireHost`, on the `amazon` host. */
  predicate Admissible(url: string, requireHost: bool) {
    && (requireHost ==> Contains(url, "amazon"))
    && !Contains(url, "icon") && !Contains(url, "logo")
    && !Contains(url, "sprite") && !Contains(url, "transparent-pixel")
  }

  /** The final length floor `url && url.length > 10`. */
  predicate LongEnough(url: string) {
    url != "" && Utf16Length(url) > 10
  }

  /** The scanning loop: each admissible URL of `urls` that is not yet in the
      list is appended to it. */
  function AppendNew(acc: seq<string>, urls: seq<string>, requireHost: bool): (r: seq<string>)
    ensures |acc| <= |r| && r[..|acc|] == acc
    decreases |urls|
  {
    if |urls| == 0 then acc
    else
      var u := urls[0];
      var next := if Admissible(u, requireHost) && u !in acc then acc + [u] else acc;
      var r := AppendNew(next, urls[1..], requireHost);
      assert r[..|acc|] == acc by { assert r[..|next|][..|acc|] == acc; }
      r
  }

  /** Every URL the loop adds is admissible, comes from `urls` and is not
      already in the list at the point it is added. */
  lemma {:induction false} AppendNewAdds(acc: seq<string>, urls: seq<string>, requireHost: bool)
    ensures forall k :: |acc| <= k < |AppendNew(acc, urls, requireHost)| ==>
      && Admissible(AppendNew(acc, urls, requireHost)[k], requireHost)
      && AppendNew(acc, urls, requireHost)[k] in urls
      && AppendNew(acc, urls, requireHost)[k] !in AppendNew(acc, urls, requireHost)[..k]
    decreases |urls|
  {
    if |urls| > 0 {
      var u := urls[0];
      var next := if Admissible(u, requireHost) && u !in acc then acc + [u] else acc;
      var r := AppendNew(acc, urls, requireHost);
      assert r == AppendNew(next, urls[1..], requireHost);
      AppendNewAdds(next, urls[1..], requireHost);
      forall k | |acc| <= k < |r|
        ensures Admissible(r[k], requireHost) && r[k] in urls && r[k] !in r[..k]
      {
        if k < |next| {
          assert r[..|next|] == next;
          assert r[k] == u;
          assert r[..k] == r[..|next|][..k] == acc;
        } else {
          assert r[k] in urls[1..];
        }
      }
    }
  }

  /** The loop misses nothing: every admissible URL of `urls` is in the list
      afterwards. */
  lemma {:induction false} AppendNewComplete(acc: seq<string>, urls: seq<string>, requireHost: bool)
    ensures forall i :: 0 <= i < |urls| && Admissible(urls[i], requireHost) ==>
      urls[i] in AppendNew(acc, urls, requireHost)
    decreases |urls|
  {
    if |urls| > 0 {
      var u := urls[0];
      var next := if Admissible(u, requireHost) && u !in acc then acc + [u] else acc;
      var r := AppendNew(acc, urls, requireHost);
      assert r == AppendNew(next, urls[1..], requireHost);
      AppendNewComplete(next, urls[1..], requireHost);
      forall i | 0 <= i < |urls| && Admissible(urls[i], requireHost)
        ensures urls[i] in r
      {
        if i == 0 {
          assert u in next;
          assert r[..|next|] == next;
        } else {
          assert urls[i] == urls[1..][i - 1];
        }
      }
    }
  }

  /** The added URLs keep their order in `urls`. */
  lemma {:induction false} AppendNewInOrder(acc: seq<string>, urls: seq<string>, requireHost: bool)
    ensures var r := AppendNew(acc, urls, requireHost); Subsequence(r[|acc|..], urls)
    decreases |urls|
  {
    var r := AppendNew(acc, urls, requireHost);
    if |urls| == 0 {
      assert r[|acc|..] == [];
    } else {
      var u := urls[0];
      var next := if Admissible(u, requireHost) && u !in acc then acc + [u] else acc;
      assert r == AppendNew(next, urls[1..], requireHost);
      AppendNewInOrder(next, urls[1..], requireHost);
      if |next| == |acc| {
        assert r[|acc|..] == r[|next|..];
      } else {
        var added := r[|acc|..];
        assert r[..|next|] == next;
        assert added[0] == u;
        assert added[1..] == r[|next|..];
      }
    }
  }

  /** The list after the loop's turn on the first URL of `urls`. */
  function AfterHead(acc: seq<string>, urls: seq<string>, requireHost: bool): seq<string>
    requires |urls| > 0
  {
    if Admissible(urls[0], requireHost) && urls[0] !in acc then acc + [urls[0]] else acc
  }

  /** The added URLs come in the order in which they first occur in `urls`. */
  lemma {:induction false} AppendNewFirstSeenOrder(acc: seq<string>, urls: seq<string>, requireHost: bool)
    ensures forall k :: |acc| <= k < |AppendNew(acc, urls, requireHost)| ==> AppendNew(acc, urls, requireHost)[k] in urls
    ensures forall k1, k2 :: |acc| <= k1 < k2 < |AppendNew(acc, urls, requireHost)| ==>
      FirstIndex(urls, AppendNew(acc, urls, requireHost)[k1]) < FirstIndex(urls, AppendNew(acc, urls, requireHost)[k2])
    decreases |urls|
  {
    AppendNewAdds(acc, urls, requireHost);
    if |urls| > 0 {
      AppendNewFirstSeenOrder(AfterHead(acc, urls, requireHost), urls[1..], requireHost);
      var next := AfterHead(acc, urls, requireHost);
      assert AppendNew(acc, urls, requireHost) == AppendNew(next, urls[1..], requireHost);
      forall k1, k2 | |acc| <= k1 < k2 < |AppendNew(acc, urls, requireHost)|
        ensures FirstIndex(urls, AppendNew(acc, urls, requireHost)[k1]) < FirstIndex(urls, AppendNew(acc, urls, requireHost)[k2])
      {
        if k1 < |next| {
          FirstSeenHeadStep(acc, urls, requireHost, k1, k2);
        } else {
          FirstSeenTailStep(acc, urls, requireHost, k1, k2);
        }
      }
    } else {
      assert AppendNew(acc, urls, requireHost) == acc;
    }
  }

  /** The inductive step of `AppendNewFirstSeenOrder` when the earlier URL
      of the pair is the first scanned URL itself. */
  lemma FirstSeenHeadStep(acc: seq<string>, urls: seq<string>, requireHost: bool, k1: nat, k2: nat)
    requires |urls| > 0
    requires |acc| <= k1 < |AfterHead(acc, urls, requireHost)| <= k2 < |AppendNew(acc, urls, requireHost)|
    ensures AppendNew(acc, urls, requireHost)[k1] in urls && AppendNew(acc, urls, requireHost)[k2] in urls
    ensures FirstIndex(urls, AppendNew(acc, urls, requireHost)[k1]) < FirstIndex(urls, AppendNew(acc, urls, requireHost)[k2])
  {
    var next := AfterHead(acc, urls, requireHost);
    var r := AppendNew(acc, urls, requireHost);
    assert r == AppendNew(next, urls[1..], requireHost);
    LaterAdditionSkipsHead(acc, urls, requireHost, k2);
    assert r[..|next|] == next;
    assert r[k1] == urls[0];
  }

  /** The inductive step of `AppendNewFirstSeenOrder` when both URLs of the
      pair were added by the rest of the loop. */
  lemma FirstSeenTailStep(acc: seq<string>, urls: seq<string>, requireHost: bool, k1: nat, k2: nat)
    requires |urls| > 0
    requires |AfterHead(acc, urls, requireHost)| <= k1 < k2 < |AppendNew(acc, urls, requireHost)|
    requires var next := AfterHead(acc, urls, requireHost);
      && AppendNew(next, urls[1..], requireHost)[k1] in urls[1..]
      && AppendNew(next, urls[1..], requireHost)[k2] in urls[1..]
      && FirstIndex(urls[1..], AppendNew(next, urls[1..], requireHost)[k1])
         < FirstIndex(urls[1..], AppendNew(next, urls[1..], requireHost)[k2])
    ensures AppendNew(acc, urls, requireHost)[k1] in urls && AppendNew(acc, urls, requireHost)[k2] in urls
    ensures FirstIndex(urls, AppendNew(acc, urls, requireHost)[k1]) < FirstIndex(urls, AppendNew(acc, urls, requireHost)[k2])
  {
    var next := AfterHead(acc, urls, requireHost);
    assert AppendNew(acc, urls, requireHost) == AppendNew(next, urls[1..], requireHost);
    LaterAdditionSkipsHead(acc, urls, requireHost, k1);
    LaterAdditionSkipsHead(acc, urls, requireHost, k2);
  }

  /** A URL the loop adds after its turn on the first scanned URL is not
      that URL, so its first occurrence lies further on. */
  lemma LaterAdditionSkipsHead(acc: seq<string>, urls: seq<string>, requireHost: bool, k: nat)
    requires |urls| > 0
    requires var next := if Admissible(urls[0], requireHost) && urls[0] !in acc then acc + [urls[0]] else acc;
      |next| <= k < |AppendNew(acc, urls, requireHost)|
    ensures AppendNew(acc, urls, requireHost)[k] in urls[1..]
    ensures AppendNew(acc, urls, requireHost)[k] != urls[0]
    ensures FirstIndex(urls, AppendNew(acc, urls, requireHost)[k]) ==
      1 + FirstIndex(urls[1..], AppendNew(acc, urls, requireHost)[k])
  {
    LaterAdditionIsNotHead(acc, urls, requireHost, k);
    FirstIndexPastHead(urls, AppendNew(acc, urls, requireHost)[k]);
  }

  /** The membership half of `LaterAdditionSkipsHead`. */
  lemma LaterAdditionIsNotHead(acc: seq<string>, urls: seq<string>, requireHost: bool, k: nat)
    requires |urls| > 0
    requires var next := if Admissible(urls[0], requireHost) && urls[0] !in acc then acc + [urls[0]] else acc;
      |next| <= k < |AppendNew(acc, urls, requireHost)|
    ensures AppendNew(acc, urls, requireHost)[k] in urls[1..]
    ensures AppendNew(acc, urls, requireHost)[k] != urls[0]
  {
    var u := urls[0];
    var next := if Admissible(u, requireHost) && u !in acc then acc + [u] else acc;
    var r := AppendNew(acc, urls, requireHost);
    assert r == AppendNew(next, urls[1..], requireHost);
    AppendNewAdds(next, urls[1..], requireHost);
    NewEntryIsNotHead(acc, u, requireHost, r, k);
  }

  /** An admissible entry beyond the head's turn that does not repeat an
      earlier entry differs from the head URL. */
  lemma NewEntryIsNotHead(acc: seq<string>, u: string, requireHost: bool, r: seq<string>, k: nat)
    requires var next := if Admissible(u, requireHost) && u !in acc then acc + [u] else acc;
      |next| <= k < |r| && r[..|next|] == next
    requires Admissible(r[k], requireHost) && r[k] !in r[..k]
    ensures r[k] != u
  {
    var next := if Admissible(u, requireHost) && u !in acc then acc + [u] else acc;
    if |next| > |acc| {
      assert r[..k][|acc|] == r[..|next|][|acc|] == u;
    } else if u in acc {
      assert r[..k][..|acc|] == r[..|next|] == acc;
    }
  }

  /** Appending only new URLs keeps a duplicate-free list duplicate-free. */
  lemma AppendNewNoDuplicates(acc: seq<string>, urls: seq<string>, requireHost: bool)
    ensures NoDuplicates(acc) ==> NoDuplicates(AppendNew(acc, urls, requireHost))
  {
    var r := AppendNew(acc, urls, requireHost);
    AppendNewAdds(acc, urls, requireHost);
    if NoDuplicates(acc) {
      forall i, j | 0 <= i < j < |r|
        ensures r[i] != r[j]
      {
        if j < |acc| {
          assert r[i] == acc[i] && r[j] == acc[j];
        } else {
          assert r[j] !in r[..j];
          assert r[..j][i] == r[i];
        }
      }
    }
  }

  /** The URLs of the `<img>` tags of `text`, in page order. */
  function ScannedUrls(e: Engine, text: string): (r: seq<string>)
    ensures |r| == |e.findAll(ImageSource, text)|
  {
    Map(e.findAll(ImageSource, text), (m: Match) => m.group1)
  }

  // ------------------------------------------------------- product images

  /** The metadata seed: the `images` array when there is one, else the
      single `image` when truthy. */
  function MetadataImages(meta: Metadata): seq<string> {
    match meta.images
    case Some(imgs) => imgs
    case None => if meta.image != "" then [meta.image] else []
  }

  /** The URLs the page scan adds after the metadata seed. */
  function ScannedAdditions(e: Engine, content: string, meta: Metadata): seq<string> {
    var seed := MetadataImages(meta);
    AppendNew(seed, ScannedUrls(e, content), true)[|seed|..]
  }

  /** extractProductImages. */
  function ExtractProductImages(e: Engine, content: string, meta: Metadata): (r: seq<string>)
    ensures forall i :: 0 <= i < |r| ==> Utf16Length(r[i]) > 10
    ensures r == Filter(MetadataImages(meta), LongEnough) + Filter(ScannedAdditions(e, content, meta), LongEnough)
    ensures NoDuplicates(MetadataImages(meta)) ==> NoDuplicates(r)
  {
    var seed := MetadataImages(meta);
    var images := AppendNew(seed, ScannedUrls(e, content), true);
    assert images == seed + images[|seed|..];
    FilterAppend(seed, images[|seed|..], LongEnough);
    AppendNewNoDuplicates(seed, ScannedUrls(e, content), true);
    FilterNoDuplicates(images, LongEnough);
    Filter(images, LongEnough)
  }

  /** Every extracted URL was scanned from the body of a present
      manufacturer section. */
  lemma ManufacturerImagesProvenance(e: Engine, content: string)
    ensures forall i :: 0 <= i < |ExtractManufacturerImages(e, content)| ==>
      exists p :: p in ManufacturerSections && ExtractManufacturerImages(e, content)[i] in SectionUrls(e, content, p)
  {
    var images := ScanSections(e, content, ManufacturerSections, []);
    var r := ExtractManufacturerImages(e, content);
    ScanSectionsProvenance(e, content, ManufacturerSections, []);
    forall i | 0 <= i < |r|
      ensures exists p :: p in ManufacturerSections && r[i] in SectionUrls(e, content, p)
    {
      var k :| 0 <= k < |images| && images[k] == r[i];
    }
  }

  /** Nothing is lost between the sections and the result: every admissible
      URL longer than 10 code units that a present manufacturer section
      yields is in the extracted list. */
  lemma ManufacturerImagesComplete(e: Engine, content: string)
    ensures forall p, u ::
      p in ManufacturerSections && u in SectionUrls(e, content, p) && Admissible(u, false) && LongEnough(u)
      ==> u in ExtractManufacturerImages(e, content)
  {
    LongSectionUrlsKept(e, content, ManufacturerSections);
  }

  /** What the scan adds is on the shop's host, not decorative, taken from
      the page in page order, never already in the list, and complete: every
      admissible scanned URL ends up in the list. */
  lemma ScannedAdditionsAreNewAndAdmissible(e: Engine, content: string, meta: Metadata)
    ensures var add := ScannedAdditions(e, content, meta);
      && (forall k :: 0 <= k < |add| ==> Admissible(add[k], true) && add[k] !in MetadataImages(meta))
      && NoDuplicates(add)
  {
    var seed := MetadataImages(meta);
    var images := AppendNew(seed, ScannedUrls(e, content), true);
    var add := images[|seed|..];
    AppendNewAdds(seed, ScannedUrls(e, content), true);
    forall k | 0 <= k < |add|
      ensures Admissible(add[k], true) && add[k] !in seed
    {
      assert add[k] == images[|seed| + k];
      assert images[..|seed| + k][..|seed|] == seed;
    }
    forall i, j | 0 <= i < j < |add|
      ensures add[i] != add[j]
    {
      assert add[i] == images[|seed| + i] && add[j] == images[|seed| + j];
      assert images[|seed| + j] !in images[..|seed| + j];
      assert images[..|seed| + j][|seed| + i] == images[|seed| + i];
    }
  }

  /** What the scan adds keeps page order, and every admissible scanned URL
      ends up in the list, from the metadata or from the scan. */
  lemma ScannedAdditionsInPageOrder(e: Engine, content: string, meta: Metadata)
    ensures Subsequence(ScannedAdditions(e, content, meta), ScannedUrls(e, content))
    ensures forall k :: 0 <= k < |ScannedAdditions(e, content, meta)| ==>
      ScannedAdditions(e, content, meta)[k] in ScannedUrls(e, content)
    ensures forall k1, k2 :: 0 <= k1 < k2 < |ScannedAdditions(e, content, meta)| ==>
      FirstIndex(ScannedUrls(e, content), ScannedAdditions(e, content, meta)[k1])
      < FirstIndex(ScannedUrls(e, content), ScannedAdditions(e, content, meta)[k2])
    ensures var urls := ScannedUrls(e, content);
      forall i :: 0 <= i < |urls| && Admissible(urls[i], true) ==>
        urls[i] in MetadataImages(meta) || urls[i] in ScannedAdditions(e, content, meta)
  {
    var seed := MetadataImages(meta);
    var urls := ScannedUrls(e, content);
    var images := AppendNew(seed, urls, true);
    AppendNewComplete(seed, urls, true);
    AppendNewInOrder(seed, urls, true);
    AppendNewFirstSeenOrder(seed, urls, true);
    assert images == seed + images[|seed|..];
    var add := images[|seed|..];
    forall k1, k2 | 0 <= k1 < k2 < |add|
      ensures add[k1] in urls && add[k2] in urls && FirstIndex(urls, add[k1]) < FirstIndex(urls, add[k2])
    {
      assert add[k1] == images[|seed| + k1] && add[k2] == images[|seed| + k2];
    }
    forall k | 0 <= k < |add|
      ensures add[k] in urls
    {
      assert add[k] == images[|seed| + k];
    }
  }

  // -------------------------------------------------- manufacturer images

  /** The scanning loop over the manufacturer sections `ps`, in order, with
      one list shared by all sections. */
  function ScanSections(e: Engine, content: string, ps: seq<Pattern>, acc: seq<string>): (r: seq<string>)
    ensures |acc| <= |r| && r[..|acc|] == acc
    decreases |ps|
  {
    if |ps| == 0 then acc
    else
      var next := ScanSection(e, content, ps[0], acc);
      var r := ScanSections(e, content, ps[1..], next);
      assert r[..|acc|] == acc by { assert r[..|next|][..|acc|] == acc; }
      r
  }

  /** The `<img>` URLs of a labelled section's body, in page order; none
      when the section is absent. */
  function SectionUrls(e: Engine, content: string, p: Pattern): seq<string> {
    match SectionBody(e, p, content)
    case Some(body) => ScannedUrls(e, body)
    case None => []
  }

  /** One manufacturer section's turn of the scanning loop. */
  function ScanSection(e: Engine, content: string, p: Pattern, acc: seq<string>): (r: seq<string>)
    ensures |acc| <= |r| && r[..|acc|] == acc
    ensures forall k :: |acc| <= k < |r| ==> Admissible(r[k], false)
    ensures NoDuplicates(acc) ==> NoDuplicates(r)
  {
    AppendNewNoDuplicates(acc, SectionUrls(e, content, p), false);
    AppendNewAdds(acc, SectionUrls(e, content, p), false);
    AppendNew(acc, SectionUrls(e, content, p), false)
  }

  /** Everything the section loop adds is admissible, and a duplicate-free
      list stays duplicate-free. */
  lemma {:induction false} ScanSectionsAdds(e: Engine, content: string, ps: seq<Pattern>, acc: seq<string>)
    ensures var r := ScanSections(e, content, ps, acc);
      && (forall k :: |acc| <= k < |r| ==> Admissible(r[k], false))
      && (NoDuplicates(acc) ==> NoDuplicates(r))
    decreases |ps|
  {
    if |ps| > 0 {
      var next := ScanSection(e, content, ps[0], acc);
      var r := ScanSections(e, content, ps, acc);
      assert r == ScanSections(e, content, ps[1..], next);
      ScanSectionsAdds(e, content, ps[1..], next);
      forall k | |acc| <= k < |r|
        ensures Admissible(r[k], false)
      {
        if k < |next| {
          assert r[..|next|][k] == next[k];
        }
      }
    }
  }

  /** Every URL the section loop adds was scanned from one of the sections. */
  lemma {:induction false} ScanSectionsProvenance(e: Engine, content: string, ps: seq<Pattern>, acc: seq<string>)
    ensures forall k :: |acc| <= k < |ScanSections(e, content, ps, acc)| ==>
      exists p :: p in ps && ScanSections(e, content, ps, acc)[k] in SectionUrls(e, content, p)
    decreases |ps|
  {
    var r := ScanSections(e, content, ps, acc);
    if |ps| == 0 {
      assert r == acc;
    } else {
      var next := ScanSection(e, content, ps[0], acc);
      assert r == ScanSections(e, content, ps[1..], next);
      ScanSectionsProvenance(e, content, ps[1..], next);
      AppendNewAdds(acc, SectionUrls(e, content, ps[0]), false);
      forall k | |acc| <= k < |r|
        ensures exists p :: p in ps && r[k] in SectionUrls(e, content, p)
      {
        if k < |next| {
          assert r[..|next|][k] == next[k];
          assert ps[0] in ps && r[k] in SectionUrls(e, content, ps[0]);
        } else {
          var p :| p in ps[1..] && r[k] in SectionUrls(e, content, p);
          assert p in ps;
        }
      }
    }
  }

  /** The section loop misses nothing: every admissible URL scanned from one
      of the sections is in the list afterwards. */
  lemma {:induction false} ScanSectionsComplete(e: Engine, content: string, ps: seq<Pattern>, acc: seq<string>)
    ensures forall p, u ::
      p in ps && u in SectionUrls(e, content, p) && Admissible(u, false)
      ==> u in ScanSections(e, content, ps, acc)
    decreases |ps|
  {
    if |ps| > 0 {
      var r := ScanSections(e, content, ps, acc);
      var next := ScanSection(e, content, ps[0], acc);
      assert r == ScanSections(e, content, ps[1..], next);
      ScanSectionsComplete(e, content, ps[1..], next);
      AppendNewComplete(acc, SectionUrls(e, content, ps[0]), false);
      forall p, u | p in ps && u in SectionUrls(e, content, p) && Admissible(u, false)
        ensures u in r
      {
        if p == ps[0] {
          assert r[..|next|] == next;
          assert u in next;
        } else {
          assert p in ps[1..];
        }
      }
    }
  }

  /** The length floor applied after the section loop keeps every long
      enough URL any section yielded. */
  lemma LongSectionUrlsKept(e: Engine, content: string, ps: seq<Pattern>)
    ensures forall p, u ::
      p in ps && u in SectionUrls(e, content, p) && Admissible(u, false) && LongEnough(u)
      ==> u in Filter(ScanSections(e, content, ps, []), LongEnough)
  {
    ScanSectionsComplete(e, content, ps, []);
    FilterKeepsMembers(ScanSections(e, content, ps, []), LongEnough);
  }

  /** extractManufacturerImages. */
  function ExtractManufacturerImages(e: Engine, content: string): (r: seq<string>)
    ensures NoDuplicates(r)
    ensures forall i :: 0 <= i < |r| ==> Utf16Length(r[i]) > 10 && Admissible(r[i], false)
    ensures forall i :: 0 <= i < |r| ==> r[i] in ScanSections(e, content, ManufacturerSections, [])
  {
    var images := ScanSections(e, content, ManufacturerSections, []);
    ScanSectionsAdds(e, content, ManufacturerSections, []);
    FilterNoDuplicates(images, LongEnough);
    Filter(images, LongEnough)
  }

  /** Filtering a duplicate-free list keeps it duplicate-free. */
  lemma {:induction false} FilterNoDuplicates(s: seq<string>, keep: string -> bool)
    ensures NoDuplicates(s) ==> NoDuplicates(Filter(s, keep))
    decreases |s|
  {
    if |s| > 0 && NoDuplicates(s) {
      assert NoDuplicates(s[1..]);
      FilterNoDuplicates(s[1..], keep);
      assert s[0] !in s[1..];
    }
  }
}

=== FILE: lists.dfy ===
/** The list-valued text extractors: bank offers and "about this item"
    bullets. Both split the bodies of labelled sections into fragments,
    clean each fragment, keep those that pass a filter, append what list
    items elsewhere in the page contribute, and fall back to a one-element
    sentinel list. */
module Lists {

  import opened Combinators
  import opened Strings
  import opened Patterns
  import opened Records

  /** The fragment separator of section bodies: newline, bullet, `<li>`, `<br>`. */
  const FragmentDelimiter := AnyOf(["\n", "•", "<li>", "<br>"])

  /** A section body cut into fragments, each stripped of non-empty tags
      (`<[^>]+>`) and trimmed. */
  function Fragments(body: string): (r: seq<string>)
    ensures |r| == |Split(body, FragmentDelimiter)|
  {
    Map(Split(body, FragmentDelimiter), f => Clean(f, true))
  }

  /** The fragments of one labelled section, or none if it is absent. */
  function SectionFragments(e: Engine, p: Pattern, content: string): seq<string> {
    match SectionBody(e, p, content)
    case Some(body) => Fragments(body)
    case None => []
  }

  /** Every fragment of the labelled sections `ps`, in section order, before
      any filtering. */
  function SectionCandidates(e: Engine, content: string, ps: seq<Pattern>): seq<string>
    decreases |ps|
  {
    if |ps| == 0 then []
    else SectionCandidates(e, content, ps[..|ps| - 1]) + SectionFragments(e, ps[|ps| - 1], content)
  }

  /** What the sections `ps` contribute when, as in the source, each
      section's fragments are filtered on their own and the survivors
      appended: the same as filtering all their fragments at once. */
  function SectionKept(e: Engine, content: string, ps: seq<Pattern>, keep: string -> bool): (r: seq<string>)
    ensures r == Filter(SectionCandidates(e, content, ps), keep)
    decreases |ps|
  {
    if |ps| == 0 then []
    else
      var here := SectionFragments(e, ps[|ps| - 1], content);
      FilterAppend(SectionCandidates(e, content, ps[..|ps| - 1]), here, keep);
      SectionKept(e, content, ps[..|ps| - 1], keep) + Filter(here, keep)
  }

  /** The list items (`<li ...>...</li>`) of `text`, each stripped of tags
      (`<[^>]*>`) and trimmed. */
  function ListItemTexts(e: Engine, text: string): (r: seq<string>)
    ensures |r| == |e.findAll(ListItem, text)|
  {
    Map(e.findAll(ListItem, text), (m: Match) => Clean(m.text, false))
  }

  // ---------------------------------------------------------- bank offers

  /** A fragment worth reporting as an offer: longer than 5 UTF-16 units and
      mentioning one of the offer keywords (case-sensitively). */
  predicate IsOfferText(s: string) {
    && Utf16Length(s) > 5
    && (|| Contains(s, "bank") || Contains(s, "credit") || Contains(s, "debit")
        || Contains(s, "card") || Contains(s, "EMI") || Contains(s, "cashback")
        || Contains(s, "discount") || Contains(s, "offer"))
  }

  /** Every offer candidate in order: section fragments, then list items. */
  function OfferCandidates(e: Engine, content: string): seq<string> {
    SectionCandidates(e, content, BankOfferSections) + ListItemTexts(e, content)
  }

  /** extractBankOffers. */
  function ExtractBankOffers(e: Engine, content: string): (r: seq<string>)
    ensures |r| > 0
    ensures |Filter(OfferCandidates(e, content), IsOfferText)| > 0 ==>
      r == Filter(OfferCandidates(e, content), IsOfferText)
    ensures |Filter(OfferCandidates(e, content), IsOfferText)| == 0 ==> r == [NoBankOffers]
  {
    var fromSections := SectionKept(e, content, BankOfferSections, IsOfferText);
    var fromItems := Filter(ListItemTexts(e, content), IsOfferText);
    FilterAppend(SectionCandidates(e, content, BankOfferSections), ListItemTexts(e, content), IsOfferText);
    var offers := fromSections + fromItems;
    assert offers == Filter(OfferCandidates(e, content), IsOfferText);
    if |offers| > 0 then offers else [NoBankOffers]
  }

  /** Every reported offer passes the offer filter, the sentinel included. */
  lemma BankOffersPassFilter(e: Engine, content: string)
    ensures forall i :: 0 <= i < |ExtractBankOffers(e, content)| ==> IsOfferText(ExtractBankOffers(e, content)[i])
  {
    SentinelIsOffer();
  }

  /** The sentinel itself reads as an offer (it mentions "bank"), so every
      element of the result passes the offer filter. */
  lemma SentinelIsOffer()
    ensures IsOfferText(NoBankOffers)
    ensures forall i :: 0 <= i < |[NoBankOffers]| ==> IsOfferText([NoBankOffers][i])
  {
    var tail := NoBankOffers[3..];
    assert tail[0] == 'b' && tail[1] == 'a' && tail[2] == 'n' && tail[3] == 'k';
    assert tail[..4] == "bank";
    assert StartsWith(tail, "bank");
    ContainsFrom(NoBankOffers, "bank", 3);
  }

  /** Section offers come first, in section order, then list-item offers. */
  lemma {:induction false} SectionOffersPrecedeListOffers(e: Engine, content: string)
    ensures ExtractBankOffers(e, content) != [NoBankOffers] ==>
      ExtractBankOffers(e, content) ==
        SectionKept(e, content, BankOfferSections, IsOfferText) + Filter(ListItemTexts(e, content), IsOfferText)
  {
    FilterAppend(SectionCandidates(e, content, BankOfferSections), ListItemTexts(e, content), IsOfferText);
  }

  // ------------------------------------------------------------ about item

  /** A fragment worth reporting as a feature: longer than 3 UTF-16 units. */
  predicate IsAboutText(s: string) {
    Utf16Length(s) > 3
  }

  /** A bullet list whose markup mentions "feature", "about" or
      "description" in any letter case. */
  predicate IsFeatureList(text: string) {
    var lower := AsciiLower(text);
    Contains(lower, "feature") || Contains(lower, "about") || Contains(lower, "description")
  }

  /** The cleaned items of the feature lists among `lists`, in order. */
  function FeatureListCandidates(e: Engine, lists: seq<Match>): seq<string>
    decreases |lists|
  {
    if |lists| == 0 then []
    else
      (if IsFeatureList(lists[0].text) then ListItemTexts(e, lists[0].text) else [])
      + FeatureListCandidates(e, lists[1..])
  }

  /** What the feature lists contribute, list by list as in the source. */
  function FeatureListKept(e: Engine, lists: seq<Match>): (r: seq<string>)
    ensures r == Filter(FeatureListCandidates(e, lists), IsAboutText)
    decreases |lists|
  {
    if |lists| == 0 then []
    else
      var here := if IsFeatureList(lists[0].text) then ListItemTexts(e, lists[0].text) else [];
      FilterAppend(here, FeatureListCandidates(e, lists[1..]), IsAboutText);
      Filter(here, IsAboutText) + FeatureListKept(e, lists[1..])
  }

  /** Every feature candidate in order: section fragments, then the items of
      feature lists. */
  function AboutCandidates(e: Engine, content: string): seq<string> {
    SectionCandidates(e, content, AboutSections) + FeatureListCandidates(e, e.findAll(BulletList, content))
  }

  lemma SentinelIsAbout()
    ensures forall i :: 0 <= i < |[NoProductDetails]| ==> IsAboutText([NoProductDetails][i])
  {
  }

  /** extractAboutItem. */
  function ExtractAboutItem(e: Engine, content: string): (r: seq<string>)
    ensures |r| > 0
    ensures forall i :: 0 <= i < |r| ==> IsAboutText(r[i])
    ensures |Filter(AboutCandidates(e, content), IsAboutText)| > 0 ==>
      r == Filter(AboutCandidates(e, content), IsAboutText)
    ensures |Filter(AboutCandidates(e, content), IsAboutText)| == 0 ==> r == [NoProductDetails]
  {
    var lists := e.findAll(BulletList, content);
    var fromSections := SectionKept(e, content, AboutSections, IsAboutText);
    var fromLists := FeatureListKept(e, lists);
    FilterAppend(SectionCandidates(e, content, AboutSections), FeatureListCandidates(e, lists), IsAboutText);
    var items := fromSections + fromLists;
    SentinelIsAbout();
    if |items| > 0 then items else [NoProductDetails]
  }
}

=== FILE: patterns.dfy ===
/** The pattern library: one name per regular expression the extractors use,
    the ordered lists in which each extractor tries them, and the regular
    expression engine as an uninterpreted oracle.

    Nothing here decides what a pattern matches. An `Engine` is any pair of
    functions answering "first match of pattern p in text t" and "all matches
    of global pattern g in text t"; every contract in this project holds for
    every engine, so it is about the combinator logic layered on top of the
    matches and not about regular-expression semantics. */
module Patterns {

  import opened Combinators

  /** One match: the whole matched text and the first two capture groups.
      A group that did not take part in the match is "": in the source both
      `undefined` and "" are falsy, and every group the source dereferences
      unconditionally always takes part in its pattern. */
  datatype Match = Match(text: string, group1: string, group2: string)

  /** The non-global patterns, matched with `content.match(re)`. */
  datatype Pattern =
    // title (extractTitle)
    | TitleHeading          // <h1 ...>(title)</h1>
    | TitleElementId        // id="productTitle" ...>(title)</span>
    | TitleElementClass     // class="product-title" ...>(title)</span>
    | TitleTextLine         // productTitle, then the next line
    | TitleLabel            // Product Name: (title)
    // price (extractPrice), in list order
    | PriceDealRupee        // deal-price ... ₹digits, or any ₹digits
    | PriceLabelRupee       // price ... ₹digits, or any ₹digits
    | PriceDollar           // $digits
    | PriceLabelRs          // price ... RS.digits
    | PriceClass            // class="a-price" ...>(text)
    | PriceDealOfDay        // deal of the day: digits
    | PriceLabelCurrency    // price: ₹digits, or price: $digits
    // rating (extractRating)
    | RatingOutOfStars      // (n) out of m stars
    | RatingSlashFive       // rating: (n)/5
    | RatingIconAlt         // class="a-icon-alt" ...>(text)
    // review count (extractNumRatings)
    | CountRatings          // (digits) ratings
    | CountReviews          // (digits) reviews
    | CountGlobalRatings    // (digits) global ratings
    | CountGlobalReviews    // (digits) global reviews
    // discount (extractDiscount)
    | DiscountPercentOff    // (n%) off
    | DiscountSave          // save (n%)
    | DiscountLabel         // discount: (n%)
    | DiscountYouSave       // You Save: ₹(amount), or you save: $(amount)
    // labelled sections: group 1 is the section body
    | SectionBankOffers     // bank offers:
    | SectionOffers         // offers:
    | SectionPayment        // payment:
    | SectionEmi            // EMI:
    | SectionAboutItem      // about this item:
    | SectionDescription    // product description:
    | SectionOverview       // overview:
    | SectionFeatures       // features:
    | SectionTechnicalDetails
    | SectionTechnicalSpecifications
    | SectionSpecifications
    | SectionProductInformation
    | SectionFromTheManufacturer
    | SectionFromManufacturer
    | SectionManufacturer
    | SectionCustomerReviews
    | SectionReviews
    | SectionRatings
    // one `key: value` line; group 1 is the key, group 2 the value
    | KeyValue              // key of any length
    | KeyValueBounded       // key of 2 to 50 characters

  /** The global patterns, whose every match is used. */
  datatype GlobalPattern =
    | ListItem              // <li ...>...</li>
    | BulletList            // <ul ...>...</ul>
    | Table                 // <table ...>...</table>
    | TableRow              // <tr ...>...</tr>
    | TableCell             // <td ...>...</td> or <th ...>...</th>
    | ImageSource           // <img ... src="(http(s) url)" ...>; group 1 is the url
    | ReviewSnippet         // review(s): "(quoted text)"; group 1 is the text

  /** A non-empty string; the rendering of a parsed number is never empty. */
  type NonEmptyString = s: string | |s| > 0 witness "0"

  /** The regular-expression engine and number formatting the extractors
      depend on, as oracles:
      - `find(p, t)`: `t.match(p)` for a non-global pattern, None for null;
      - `findAll(g, t)`: the successive matches of a global pattern in `t`
        (empty when `t.match(g)` is null);
      - `parseNumber(t)`: `parseFloat(t).toString()`, None when the parse
        gives NaN. */
  datatype Engine = Engine(
    find: (Pattern, string) -> Option<Match>,
    findAll: (GlobalPattern, string) -> seq<Match>,
    parseNumber: string -> Option<NonEmptyString>)

  /** Title patterns tried on markup, then on text, in source order. */
  const TitleMarkupPatterns: seq<Pattern> := [TitleHeading, TitleElementId, TitleElementClass]
  const TitleTextPatterns: seq<Pattern> := [TitleTextLine, TitleLabel]

  const PricePatterns: seq<Pattern> :=
    [PriceDealRupee, PriceLabelRupee, PriceDollar, PriceLabelRs, PriceClass, PriceDealOfDay, PriceLabelCurrency]

  const RatingPatterns: seq<Pattern> := [RatingOutOfStars, RatingSlashFive, RatingIconAlt]

  const CountPatterns: seq<Pattern> := [CountRatings, CountReviews, CountGlobalRatings, CountGlobalReviews]

  const DiscountPatterns: seq<Pattern> := [DiscountPercentOff, DiscountSave, DiscountLabel, DiscountYouSave]

  const BankOfferSections: seq<Pattern> := [SectionBankOffers, SectionOffers, SectionPayment, SectionEmi]

  const AboutSections: seq<Pattern> := [SectionAboutItem, SectionDescription, SectionOverview, SectionFeatures]

  const SpecificationSections: seq<Pattern> :=
    [SectionTechnicalDetails, SectionTechnicalSpecifications, SectionSpecifications, SectionProductInformation]

  const ManufacturerSections: seq<Pattern> :=
    [SectionFromTheManufacturer, SectionFromManufacturer, SectionManufacturer]

  const ReviewSections: seq<Pattern> := [SectionCustomerReviews, SectionReviews, SectionRatings]

  /** The body of a labelled section: the pattern matched and its group 1 is
      non-empty (the source's `section && section[1]`). */
  function SectionBody(e: Engine, p: Pattern, content: string): (r: Option<string>)
    ensures r.Some? ==> r.value != ""
  {
    match e.find(p, content)
    case Some(m) => if m.group1 != "" then Some(m.group1) else None
    case None => None
  }
}

=== FILE: product_info.dfy ===
/** The specification-table extractor. Candidate `key: value` entries come
    from three tiers: the rows of every table, the lines of the labelled
    specification sections, and, only when the first two tiers stored
    nothing, every line of the page. Entries are written into one map in
    order, so a later entry with the same key overwrites an earlier one. */
module ProductInfo {

  import opened Combinators
  import opened Strings
  import opened Patterns

  /** One candidate `key: value` entry. */
  datatype Entry = Entry(key: string, value: string)

  /** The one key a JavaScript object literal does not store when assigned
      a string: `obj["__proto__"] = s` is ignored by the prototype setter. */
  const ProtoKey := "__proto__"

  /** The line separator of the text tiers: newline or `<br>`. */
  const LineDelimiter := AnyOf(["\n", "<br>"])

  /** What every stored entry satisfies: non-empty key shorter than 100
      UTF-16 units, non-empty value, and, in the whole-page tier, a value
      shorter than 500 units. */
  predicate Acceptable(en: Entry, boundValue: bool) {
    && en.key != "" && en.value != "" && Utf16Length(en.key) < 100
    && (boundValue ==> Utf16Length(en.value) < 500)
  }

  // ------------------------------------------------------- the map itself

  /** `info[key] = value`. */
  function Put(m: map<string, string>, en: Entry): map<string, string> {
    if en.key == ProtoKey then m else m[en.key := en.value]
  }

  /** The object built by writing the entries `es` in order into `{}`. */
  function Assign(es: seq<Entry>): (m: map<string, string>)
    ensures forall k :: k in m ==> k != ProtoKey && Entry(k, m[k]) in es
    ensures forall i :: 0 <= i < |es| && es[i].key != ProtoKey ==> es[i].key in m
    decreases |es|
  {
    if |es| == 0 then map[]
    else Put(Assign(es[..|es| - 1]), es[|es| - 1])
  }

  /** Later entries overwrite earlier ones: a key's stored value is the value
      of its last entry. */
  lemma {:induction false} AssignLastWins(es: seq<Entry>, i: nat)
    requires i < |es| && es[i].key != ProtoKey
    requires forall j :: i < j < |es| ==> es[j].key != es[i].key
    ensures es[i].key in Assign(es) && Assign(es)[es[i].key] == es[i].value
    decreases |es|
  {
    if i < |es| - 1 {
      var init := es[..|es| - 1];
      assert init[i] == es[i];
      AssignLastWins(init, i);
    }
  }

  // ------------------------------------------------------------ tier one

  /** One table row: its first two cells, tags stripped and trimmed, when the
      row has at least two cells and the pair is acceptable. */
  function RowEntry(e: Engine, row: Match): (r: Option<Entry>)
    ensures r.Some? ==> Acceptable(r.value, false)
    ensures r.Some? <==>
      var cells := e.findAll(TableCell, row.text);
      |cells| >= 2 && Acceptable(Entry(Clean(cells[0].text, false), Clean(cells[1].text, false)), false)
    ensures r.Some? ==>
      var cells := e.findAll(TableCell, row.text);
      r.value == Entry(Clean(cells[0].text, false), Clean(cells[1].text, false))
  {
    var cells := e.findAll(TableCell, row.text);
    if |cells| >= 2 then
      var key := Clean(cells[0].text, false);
      var value := Clean(cells[1].text, false);
      if key != "" && value != "" && Utf16Length(key) < 100 then Some(Entry(key, value)) else None
    else None
  }

  function RowsEntries(e: Engine, rows: seq<Match>): (r: seq<Entry>)
    ensures forall i :: 0 <= i < |r| ==> Acceptable(r[i], false)
    decreases |rows|
  {
    if |rows| == 0 then []
    else
      (match RowEntry(e, rows[0]) case Some(en) => [en] case None => [])
      + RowsEntries(e, rows[1..])
  }

  function TablesEntries(e: Engine, tables: seq<Match>): (r: seq<Entry>)
    ensures forall i :: 0 <= i < |r| ==> Acceptable(r[i], false)
    decreases |tables|
  {
    if |tables| == 0 then []
    else RowsEntries(e, e.findAll(TableRow, tables[0].text)) + TablesEntries(e, tables[1..])
  }

  /** Tier one: the entries of every row of every table, in page order. */
  function TableEntries(e: Engine, content: string): (r: seq<Entry>)
    ensures forall i :: 0 <= i < |r| ==> Acceptable(r[i], false)
  {
    TablesEntries(e, e.findAll(Table, content))
  }

  // ----------------------------------------------------- tiers two, three

  /** One line: tags stripped, matched against a `key: value` pattern, both
      groups non-empty, both trimmed, kept when acceptable. */
  function LineEntry(e: Engine, p: Pattern, line: string, boundValue: bool): (r: Option<Entry>)
    ensures r.Some? ==> Acceptable(r.value, boundValue)
    ensures r.Some? <==>
      var m := e.find(p, ReplaceTags(line, false, ""));
      && m.Some? && m.value.group1 != "" && m.value.group2 != ""
      && Acceptable(Entry(Trim(m.value.group1), Trim(m.value.group2)), boundValue)
    ensures r.Some? ==>
      var m := e.find(p, ReplaceTags(line, false, ""));
      m.Some? && r.value == Entry(Trim(m.value.group1), Trim(m.value.group2))
  {
    match e.find(p, ReplaceTags(line, false, ""))
    case Some(m) =>
      if m.group1 != "" && m.group2 != "" then
        var key := Trim(m.group1);
        var value := Trim(m.group2);
        if key != "" && value != "" && Utf16Length(key) < 100 && (!boundValue || Utf16Length(value) < 500)
        then Some(Entry(key, value)) else None
      else None
    case None => None
  }

  function LinesEntries(e: Engine, p: Pattern, lines: seq<string>, boundValue: bool): (r: seq<Entry>)
    ensures forall i :: 0 <= i < |r| ==> Acceptable(r[i], boundValue)
    decreases |lines|
  {
    if |lines| == 0 then []
    else
      (match LineEntry(e, p, lines[0], boundValue) case Some(en) => [en] case None => [])
      + LinesEntries(e, p, lines[1..], boundValue)
  }

  /** Tier two: the lines of the labelled specification sections `ps`. */
  function SectionEntries(e: Engine, content: string, ps: seq<Pattern>): (r: seq<Entry>)
    ensures forall i :: 0 <= i < |r| ==> Acceptable(r[i], false)
    decreases |ps|
  {
    if |ps| == 0 then []
    else
      SectionEntries(e, content, ps[..|ps| - 1])
      + match SectionBody(e, ps[|ps| - 1], content)
        case Some(body) => LinesEntries(e, KeyValue, Split(body, LineDelimiter), false)
        case None => []
  }

  /** Tier three: every line of the page, with a bounded key pattern and
      values shorter than 500 units. */
  function ContentEntries(e: Engine, content: string): (r: seq<Entry>)
    ensures forall i :: 0 <= i < |r| ==> Acceptable(r[i], true)
  {
    LinesEntries(e, KeyValueBounded, Split(content, LineDelimiter), true)
  }

  /** The entries of the first two tiers, which always both run. */
  function PrimaryEntries(e: Engine, content: string): (r: seq<Entry>)
    ensures forall i :: 0 <= i < |r| ==> Acceptable(r[i], false)
  {
    TableEntries(e, content) + SectionEntries(e, content, SpecificationSections)
  }

  /** extractProductInfo. */
  function ExtractProductInfo(e: Engine, content: string): (r: map<string, string>)
    ensures forall k :: k in r ==> k != ProtoKey && Acceptable(Entry(k, r[k]), false)
    ensures Assign(PrimaryEntries(e, content)) != map[] ==> r == Assign(PrimaryEntries(e, content))
    ensures Assign(PrimaryEntries(e, content)) == map[] ==>
      r == Assign(ContentEntries(e, content)) && forall k :: k in r ==> Utf16Length(r[k]) < 500
  {
    var primary := Assign(PrimaryEntries(e, content));
    if primary == map[] then Assign(ContentEntries(e, content)) else primary
  }

  /** An entry of a later batch that is the last with its key decides that
      key, whatever the earlier batch held. */
  lemma LaterBatchWins(t: seq<Entry>, s: seq<Entry>, j: nat)
    requires j < |s| && s[j].key != ProtoKey
    requires forall j' :: j < j' < |s| ==> s[j'].key != s[j].key
    ensures s[j].key in Assign(t + s) && Assign(t + s)[s[j].key] == s[j].value
  {
    var all := t + s;
    assert all[|t| + j] == s[j];
    forall j' | |t| + j < j' < |all|
      ensures all[j'].key != s[j].key
    {
      assert all[j'] == s[j' - |t|];
    }
    AssignLastWins(all, |t| + j);
  }

  /** The section tier runs even when tables produced entries, and being
      later it wins: a key's last section entry decides its value. */
  lemma SectionEntryOverridesTable(e: Engine, content: string, j: nat)
    requires j < |SectionEntries(e, content, SpecificationSections)|
    requires SectionEntries(e, content, SpecificationSections)[j].key != ProtoKey
    requires var s := SectionEntries(e, content, SpecificationSections);
      forall j' :: j < j' < |s| ==> s[j'].key != s[j].key
    ensures var en := SectionEntries(e, content, SpecificationSections)[j];
      en.key in ExtractProductInfo(e, content) && ExtractProductInfo(e, content)[en.key] == en.value
  {
    var t := TableEntries(e, content);
    var s := SectionEntries(e, content, SpecificationSections);
    assert PrimaryEntries(e, content) == t + s;
    LaterBatchWins(t, s, j);
  }

  /** The whole-page tier is skipped as soon as one earlier entry was stored. */
  lemma PageLinesIgnoredAfterTableEntry(e: Engine, content: string)
    ensures (exists i :: 0 <= i < |PrimaryEntries(e, content)| && PrimaryEntries(e, content)[i].key != ProtoKey) ==>
      ExtractProductInfo(e, content) == Assign(PrimaryEntries(e, content))
  {
    var es := PrimaryEntries(e, content);
    if i :| 0 <= i < |es| && es[i].key != ProtoKey {
      assert es[i].key in Assign(es);
    }
  }
}

=== FILE: records.dfy ===
/** The data the pipeline consumes and produces: the structured metadata a
    crawled page may carry, the product record, the sentinel values that
    stand for "not found", and the shape every returned record has. */
module Records {

  import opened Combinators
  import opened Strings

  /** Structured hints the crawler attaches to a page. A missing or falsy
      string field is "". `images` is Some exactly when the metadata carries
      an array of images, in which case `image` is not consulted. */
  datatype Metadata = Metadata(
    title: string,
    ogTitle: string,
    price: string,
    rating: string,
    image: string,
    images: Option<seq<string>>)

  /** One product record, as returned to the caller. */
  datatype Product = Product(
    title: string,
    price: string,
    rating: string,
    numRatings: string,
    discount: string,
    bankOffers: seq<string>,
    aboutItem: seq<string>,
    productInfo: map<string, string>,
    imageUrls: seq<string>,
    manufacturerImages: seq<string>,
    reviewSummary: string,
    link: string)

  // Sentinel values returned when every strategy of a field fails.
  const UnknownProduct := "Unknown Product"
  const PriceUnavailable := "Price unavailable"
  const NoRatings := "No ratings"
  const ZeroRatings := "0"
  const NoDiscount := "No discount"
  const NoBankOffers := "No bank offers available"
  const NoProductDetails := "No product details available"
  const NoReviewSummary := "No review summary available"

  /** The shape every record handed to the caller has: scalar fields other
      than the review summary are non-empty, both list fields are non-empty,
      every specification key is non-empty and shorter than 100 UTF-16 units
      with a non-empty value, every image URL is longer than 10 units, and
      manufacturer images are never repeated. */
  ghost predicate WellFormed(p: Product) {
    && p.title != "" && p.price != "" && p.rating != ""
    && p.numRatings != "" && p.discount != ""
    && |p.bankOffers| > 0 && |p.aboutItem| > 0
    && (forall k :: k in p.productInfo ==> k != "" && Utf16Length(k) < 100 && p.productInfo[k] != "")
    && (forall i :: 0 <= i < |p.imageUrls| ==> Utf16Length(p.imageUrls[i]) > 10)
    && (forall i :: 0 <= i < |p.manufacturerImages| ==> Utf16Length(p.manufacturerImages[i]) > 10)
    && NoDuplicates(p.manufacturerImages)
  }

  /** Plain-length facts that are enough for a record to be well formed. */
  lemma WellFormedByLengths(p: Product)
    requires p.title != "" && p.price != "" && p.rating != ""
    requires p.numRatings != "" && p.discount != ""
    requires |p.bankOffers| > 0 && |p.aboutItem| > 0
    requires forall k :: k in p.productInfo ==> 0 < |k| < 50 && p.productInfo[k] != ""
    requires forall i :: 0 <= i < |p.imageUrls| ==> |p.imageUrls[i]| > 10
    requires forall i :: 0 <= i < |p.manufacturerImages| ==> |p.manufacturerImages[i]| > 10
    requires |p.manufacturerImages| <= 1
    ensures WellFormed(p)
  {
  }
}

=== FILE: reviews.dfy ===
/** The review summary: the body of the first labelled review section,
    stripped of tags and cut down to its first three sentences; else the
    quoted text of the first review snippet; else a sentinel. */
module Reviews {

  import opened Combinators
  import opened Strings
  import opened Patterns
  import opened Records

  /** A section body with every tag (`<[^>]*>`) replaced by a space, trimmed. */
  function CleanReview(body: string): (r: string)
    ensures NoTagLeft(r)
    ensures '<' !in body ==> r == Trim(body)
  {
    var replaced := ReplaceTags(body, false, " ");
    Trim(replaced)
  }

  /** One tag between two tag-free texts becomes a single space: the text
      on both sides survives cleaning. */
  lemma CleanReviewReplacesTag(x: string, y: string, t: string)
    requires '<' !in x && '>' !in y && '<' !in t
    ensures CleanReview(x + "<" + y + ">" + t) == Trim(x + " " + t)
  {
    ReplaceTagsKeepsText(x, "<" + y + ">" + t, false, " ");
    ReplaceTagsDropsTag(y, t, false, " ");
    assert x + "<" + y + ">" + t == x + ("<" + y + ">" + t);
    assert x + (" " + t) == x + " " + t;
  }

  /** A cleaned text cut to its first three sentences, rejoined with ". "
      and closed with a period, when it has more than one sentence; else the
      text unchanged. */
  function Abridge(clean: string): string {
    var sentences := Split(clean, PeriodThenSpaces);
    if |sentences| > 1 then
      Join(sentences[..if |sentences| < 3 then |sentences| else 3], ". ") + "."
    else clean
  }

  /** What one review section body becomes. */
  function Summarize(body: string): string {
    Abridge(CleanReview(body))
  }

  /** A text without a period is returned as it is; a text with periods
      becomes a summary ending in a period that holds one period more than
      the text, but at most three: two or three sentences joined. */
  lemma AbridgePeriods(clean: string)
    ensures '.' !in clean ==> Abridge(clean) == clean
    ensures '.' in clean ==>
      && |Abridge(clean)| > 0 && Abridge(clean)[|Abridge(clean)| - 1] == '.'
      && Occurrences(Abridge(clean), '.') ==
           (if Occurrences(clean, '.') < 2 then Occurrences(clean, '.') + 1 else 3)
  {
    var sentences := Split(clean, PeriodThenSpaces);
    SentenceCount(clean);
    if '.' !in clean {
      OccurrencesAbsent(clean, '.');
    } else {
      OccurrencesPresent(clean, '.');
      var n := if |sentences| < 3 then |sentences| else 3;
      var kept := sentences[..n];
      SentencesHaveNoPeriod(clean);
      assert forall i :: 0 <= i < |kept| ==> kept[i] == sentences[i];
      SeparatorPeriods();
      JoinOccurrences(kept, ". ", '.');
      OccurrencesAppend(Join(kept, ". "), ".", '.');
    }
  }

  /** A period-free text closed by a period splits into the text and an
      empty piece. */
  lemma {:induction false} SplitTrailingPeriod(t: string)
    requires '.' !in t
    ensures Split(t + ".", PeriodThenSpaces) == [t, ""]
    decreases |t|
  {
    var s := t + ".";
    if |t| == 0 {
      assert s == ".";
      assert s[1..] == "";
    } else {
      assert s[0] == t[0] && s[0] != '.';
      assert s[1..] == t[1..] + ".";
      SplitTrailingPeriod(t[1..]);
      assert [t[0]] + t[1..] == t;
    }
  }

  /** Period-free sentences, each after the first unspaced, joined with
      `". "` and closed by a period split back into themselves followed by
      one empty piece. */
  lemma {:induction false} JoinedSentencesSplitBack(pieces: seq<string>)
    requires |pieces| >= 1
    requires forall i :: 0 <= i < |pieces| ==> '.' !in pieces[i]
    requires forall i :: 1 <= i < |pieces| ==> Unspaced(pieces[i])
    ensures Split(Join(pieces, ". ") + ".", PeriodThenSpaces) == pieces + [""]
    decreases |pieces|
  {
    if |pieces| == 1 {
      SplitTrailingPeriod(pieces[0]);
    } else {
      var rest := pieces[1..];
      var tail := Join(rest, ". ") + ".";
      JoinedSentencesSplitBack(rest);
      JoinedThenPeriodUnspaced(rest);
      SplitAfterSeparator(tail);
      assert Join(pieces, ". ") + "." == pieces[0] + (". " + tail);
      SplitPastSentence(pieces[0], ". " + tail);
      assert pieces[0] + "" == pieces[0];
      assert pieces == [pieces[0]] + rest;
    }
  }

  /** Joined sentences closed by a period start unspaced when the first
      sentence does. */
  lemma JoinedThenPeriodUnspaced(ps: seq<string>)
    requires |ps| >= 1 && Unspaced(ps[0])
    ensures Unspaced(Join(ps, ". ") + ".")
  {
    var t := Join(ps, ". ") + ".";
    if |ps| == 1 {
      assert t == ps[0] + ".";
      assert t[0] == if ps[0] == "" then '.' else ps[0][0];
    } else {
      assert t == ps[0] + (". " + (Join(ps[1..], ". ") + "."));
      assert t[0] == if ps[0] == "" then '.' else ps[0][0];
    }
  }

  /** The summary of a text with periods splits back, on the same
      separator, into the sentences it kept (two or three of them)
      followed by the empty piece after its closing period. */
  lemma AbridgeSplitsBack(clean: string)
    requires '.' in clean
    ensures
      var sentences := Split(clean, PeriodThenSpaces);
      var n := if |sentences| < 3 then |sentences| else 3;
      && 2 <= n
      && Split(Abridge(clean), PeriodThenSpaces) == sentences[..n] + [""]
  {
    var sentences := Split(clean, PeriodThenSpaces);
    SentenceCount(clean);
    OccurrencesPresent(clean, '.');
    var n := if |sentences| < 3 then |sentences| else 3;
    var kept := sentences[..n];
    SentencesHaveNoPeriod(clean);
    SentencesStartUnspaced(clean);
    assert forall i :: 0 <= i < |kept| ==> kept[i] == sentences[i];
    JoinedSentencesSplitBack(kept);
  }

  /** A single sentence closed by a period still counts as two, the second
      empty, so its summary gains a stray separator: "Great TV." becomes
      "Great TV. .". */
  lemma SingleSentenceGainsStrayPeriod(t: string)
    requires '.' !in t
    ensures Abridge(t + ".") == t + ". ."
  {
    SplitTrailingPeriod(t);
    var sentences := [t, ""];
    assert sentences[..2] == sentences;
    assert Join(sentences, ". ") == t + ". " + "";
  }

  /** The joining separator and the closing period each hold one period. */
  lemma SeparatorPeriods()
    ensures Occurrences(". ", '.') == 1 && Occurrences(".", '.') == 1
  {
    assert ". "[1..] == " " && " "[1..] == "" && "."[1..] == "";
  }

  /** A character that occurs is counted. */
  lemma {:induction false} OccurrencesPresent(s: string, c: char)
    requires c in s
    ensures Occurrences(s, c) > 0
    decreases |s|
  {
    if s[0] != c {
      assert c in s[1..];
      OccurrencesPresent(s[1..], c);
    }
  }

  /** The summary candidate of each labelled review section, in order. */
  function SectionSummaries(e: Engine, content: string): (r: seq<Option<string>>)
    ensures |r| == |ReviewSections|
    ensures forall i :: 0 <= i < |r| ==>
      r[i] == (match SectionBody(e, ReviewSections[i], content)
               case Some(body) => Some(Summarize(body))
               case None => None)
  {
    Map(ReviewSections, p =>
      match SectionBody(e, p, content)
      case Some(body) => Some(Summarize(body))
      case None => None)
  }

  /** `content.match(/reviews?:?\s*["']([^"']+)["']/gi)`, its first match
      rewritten to its quoted text. */
  function SnippetSummary(e: Engine, content: string): (r: Option<string>)
    ensures r.Some? <==> |e.findAll(ReviewSnippet, content)| > 0
  {
    var snippets := e.findAll(ReviewSnippet, content);
    if |snippets| > 0 then Some(snippets[0].group1) else None
  }

  /** generateReviewSummary. */
  function GenerateReviewSummary(e: Engine, content: string): (r: string)
    ensures (exists i :: 0 <= i < |ReviewSections| && SectionBody(e, ReviewSections[i], content).Some?) ==>
      exists i :: 0 <= i < |ReviewSections| && SectionBody(e, ReviewSections[i], content).Some? &&
        r == Summarize(SectionBody(e, ReviewSections[i], content).value)
    ensures (forall i :: 0 <= i < |ReviewSections| ==> SectionBody(e, ReviewSections[i], content).None?) ==>
      r == SnippetSummary(e, content).GetOr(NoReviewSummary)
  {
    var summaries := SectionSummaries(e, content);
    match FirstSome(summaries)
    case Some(s) => s
    case None => SnippetSummary(e, content).GetOr(NoReviewSummary)
  }

  /** The first labelled section with a body decides, whatever the later
      sections and the snippets hold. */
  lemma FirstReviewSectionWins(e: Engine, content: string, i: nat)
    requires i < |ReviewSections| && SectionBody(e, ReviewSections[i], content).Some?
    requires forall j :: 0 <= j < i ==> SectionBody(e, ReviewSections[j], content).None?
    ensures GenerateReviewSummary(e, content) == Summarize(SectionBody(e, ReviewSections[i], content).value)
  {
    FirstSomeIsFirst(SectionSummaries(e, content), i);
  }
}

=== FILE: scalars.dfy ===
/** The single-valued field extractors: title, price, rating, review count
    and discount. Each is an ordered chain of strategies (metadata first,
    then patterns in list order) in which the first strategy that yields a
    value decides, ending in the field's sentinel. */
module Scalars {

  import opened Combinators
  import opened Strings
  import opened Patterns
  import opened Records

  /** A metadata field, used only when truthy. */
  function Hint(s: string): (r: Option<string>)
    ensures r.Some? <==> s != ""
    ensures r.Some? ==> r.value == s
  {
    if s != "" then Some(s) else None
  }

  /** `a.match(p1) || a.match(p2) || ...`: the first pattern of `ps` that
      matches at all. */
  function FirstMatch(e: Engine, ps: seq<Pattern>, content: string): Option<Match> {
    FirstSome(Map(ps, p => e.find(p, content)))
  }

  /** `m && m[1].trim()`, as a candidate: present when the trimmed group 1
      is non-empty. */
  function TrimmedCapture(m: Option<Match>): (r: Option<string>)
    ensures r.Some? ==> m.Some? && r.value != "" && r.value == Trim(m.value.group1)
    ensures m.Some? && Trim(m.value.group1) != "" ==> r.Some?
  {
    match m
    case Some(x) => if Trim(x.group1) != "" then Some(Trim(x.group1)) else None
    case None => None
  }

  // ---------------------------------------------------------------- title

  /** The four title strategies in precedence order: metadata title, Open
      Graph title, the first markup pattern that matches, the first text
      pattern that matches. A matching pattern whose capture trims to ""
      yields nothing, and it still hides the later patterns of its group. */
  function TitleCandidates(e: Engine, content: string, meta: Metadata): (r: seq<Option<string>>)
    ensures |r| == 4
    ensures forall i :: 0 <= i < |r| && r[i].Some? ==> r[i].value != ""
  {
    [Hint(meta.title), Hint(meta.ogTitle), TitleCapture(e, TitleMarkupPatterns, content), TitleCapture(e, TitleTextPatterns, content)]
  }

  /** The trimmed capture of the first pattern of `ps` that matches. */
  function TitleCapture(e: Engine, ps: seq<Pattern>, content: string): (r: Option<string>)
    ensures r.Some? ==> r.value != ""
  {
    TrimmedCapture(FirstMatch(e, ps, content))
  }

  /** extractTitle. */
  function ExtractTitle(e: Engine, content: string, meta: Metadata): (r: string)
    ensures r != ""
    ensures meta.title != "" ==> r == meta.title
    ensures meta.title == "" && meta.ogTitle != "" ==> r == meta.ogTitle
    ensures (forall i :: 0 <= i < 4 ==> TitleCandidates(e, content, meta)[i].None?) ==> r == UnknownProduct
    ensures r == UnknownProduct ==>
      (forall i :: 0 <= i < 4 ==> TitleCandidates(e, content, meta)[i].None?) ||
      (exists i :: 0 <= i < 4 && TitleCandidates(e, content, meta)[i] == Some(UnknownProduct))
  {
    FirstSome(TitleCandidates(e, content, meta)).GetOr(UnknownProduct)
  }

  /** Without metadata titles, a markup title beats every text title. */
  lemma TitleMarkupBeatsText(e: Engine, content: string, meta: Metadata)
    requires meta.title == "" && meta.ogTitle == ""
    requires TitleCapture(e, TitleMarkupPatterns, content).Some?
    ensures ExtractTitle(e, content, meta) == Trim(FirstMatch(e, TitleMarkupPatterns, content).value.group1)
  {
    FirstSomeIsFirst(TitleCandidates(e, content, meta), 2);
  }

  /** Without metadata titles and without a markup capture, the first text
      pattern that matches decides: its trimmed capture is the title, and
      the sentinel results when it captures nothing or no text pattern
      matches. */
  lemma TitleTextWhenNoMarkup(e: Engine, content: string, meta: Metadata)
    requires meta.title == "" && meta.ogTitle == ""
    requires TitleCapture(e, TitleMarkupPatterns, content).None?
    ensures ExtractTitle(e, content, meta) == TitleCapture(e, TitleTextPatterns, content).GetOr(UnknownProduct)
    ensures TitleCapture(e, TitleTextPatterns, content).Some? ==>
      ExtractTitle(e, content, meta) == Trim(FirstMatch(e, TitleTextPatterns, content).value.group1)
  {
    var cands := TitleCandidates(e, content, meta);
    if cands[3].Some? {
      FirstSomeIsFirst(cands, 3);
    }
  }

  /** A heading whose text is only whitespace still counts as the markup
      match: the product-title id and class patterns are then never
      consulted, and the title comes from the text patterns or the sentinel. */
  lemma BlankHeadingHidesTitleElements(e: Engine, content: string, meta: Metadata)
    requires meta.title == "" && meta.ogTitle == ""
    requires e.find(TitleHeading, content).Some?
    requires Trim(e.find(TitleHeading, content).value.group1) == ""
    ensures ExtractTitle(e, content, meta) ==
      TitleCapture(e, TitleTextPatterns, content).GetOr(UnknownProduct)
  {
    var ms := Map(TitleMarkupPatterns, p => e.find(p, content));
    FirstSomeIsFirst(ms, 0);
    var cands := TitleCandidates(e, content, meta);
    assert cands[0].None? && cands[1].None? && cands[2].None?;
    if cands[3].Some? {
      FirstSomeIsFirst(cands, 3);
    }
  }

  // ---------------------------------------------------------------- price

  /** The prefix the matched text selects: `₹` if it contains `₹`, else `$`
      if it contains `$`, else `Rs.` if it contains `RS` (case-sensitive,
      although the pattern itself ignores case), else nothing. */
  function CurrencyPrefix(text: string): (r: string)
    ensures r in {"₹", "$", "Rs.", ""}
    ensures Contains(text, "₹") <==> r == "₹"
    ensures r == "$" <==> !Contains(text, "₹") && Contains(text, "$")
    ensures r == "Rs." <==> !Contains(text, "₹") && !Contains(text, "$") && Contains(text, "RS")
  {
    if Contains(text, "₹") then "₹"
    else if Contains(text, "$") then "$"
    else if Contains(text, "RS") then "Rs."
    else ""
  }

  /** The `RS` test is case-sensitive although the rupee pattern ignores
      case: matched text that spells the label "Rs." and names no other
      currency selects no prefix at all, e.g. "price: Rs. 45,999". */
  lemma LowercaseRupeeLabelGetsNoPrefix(text: string)
    requires '₹' !in text && '$' !in text && 'S' !in text
    ensures CurrencyPrefix(text) == ""
  {
    MissingCharNotContained(text, "₹", 0);
    MissingCharNotContained(text, "$", 0);
    MissingCharNotContained(text, "RS", 1);
  }

  /** `match[1] || match[2]`: the price digits a match captured. */
  function PriceCapture(m: Match): string {
    if m.group1 != "" then m.group1 else m.group2
  }

  /** What one price pattern contributes: its capture with the currency
      prefix, when it matched with a non-empty capture. */
  function PriceFromMatch(m: Option<Match>): (r: Option<string>)
    ensures r.Some? <==> m.Some? && PriceCapture(m.value) != ""
    ensures r.Some? ==> r.value == CurrencyPrefix(m.value.text) + PriceCapture(m.value)
  {
    match m
    case Some(x) => if PriceCapture(x) != "" then Some(CurrencyPrefix(x.text) + PriceCapture(x)) else None
    case None => None
  }

  function PriceCandidates(e: Engine, content: string): (r: seq<Option<string>>)
    ensures |r| == |PricePatterns|
    ensures forall i :: 0 <= i < |r| ==> r[i] == PriceFromMatch(e.find(PricePatterns[i], content))
    ensures forall i :: 0 <= i < |r| && r[i].Some? ==> r[i].value != ""
  {
    Map(PricePatterns, p => PriceFromMatch(e.find(p, content)))
  }

  /** No price pattern matched with a non-empty capture. */
  predicate NoPriceCapture(e: Engine, content: string) {
    forall i :: 0 <= i < |PricePatterns| ==> PriceFromMatch(e.find(PricePatterns[i], content)).None?
  }

  /** extractPrice. */
  function ExtractPrice(e: Engine, content: string, meta: Metadata): (r: string)
    ensures r != ""
    ensures meta.price != "" ==> r == meta.price
    ensures meta.price == "" && NoPriceCapture(e, content) ==> r == PriceUnavailable
  {
    if meta.price != "" then meta.price
    else FirstSome(PriceCandidates(e, content)).GetOr(PriceUnavailable)
  }

  /** Without a metadata price, the first pattern in list order that
      captures digits decides: the digits are returned unchanged, behind the
      prefix its matched text selects. */
  lemma PriceFromFirstCapturingPattern(e: Engine, content: string, meta: Metadata, i: nat)
    requires meta.price == ""
    requires i < |PricePatterns|
    requires PriceFromMatch(e.find(PricePatterns[i], content)).Some?
    requires forall j :: 0 <= j < i ==> PriceFromMatch(e.find(PricePatterns[j], content)).None?
    ensures var m := e.find(PricePatterns[i], content).value;
      ExtractPrice(e, content, meta) == CurrencyPrefix(m.text) + PriceCapture(m)
  {
    FirstSomeIsFirst(PriceCandidates(e, content), i);
  }

  // --------------------------------------------------------------- rating

  /** What one rating pattern contributes: its group 1, when non-empty and
      parseable as a number, rendered back as a number. */
  function RatingFromMatch(e: Engine, m: Option<Match>): (r: Option<string>)
    ensures r.Some? ==> r.value != ""
    ensures r.Some? <==> m.Some? && m.value.group1 != "" && e.parseNumber(m.value.group1).Some?
  {
    match m
    case Some(x) => if x.group1 != "" then e.parseNumber(x.group1) else None
    case None => None
  }

  function RatingCandidates(e: Engine, content: string): (r: seq<Option<string>>)
    ensures |r| == |RatingPatterns|
    ensures forall i :: 0 <= i < |r| ==> r[i] == RatingFromMatch(e, e.find(RatingPatterns[i], content))
    ensures forall i :: 0 <= i < |r| && r[i].Some? ==> r[i].value != ""
  {
    Map(RatingPatterns, p => RatingFromMatch(e, e.find(p, content)))
  }

  /** No rating pattern yields a capture that parses. */
  predicate NoRatingParses(e: Engine, content: string) {
    forall i :: 0 <= i < |RatingPatterns| ==> RatingFromMatch(e, e.find(RatingPatterns[i], content)).None?
  }

  /** extractRating. */
  function ExtractRating(e: Engine, content: string, meta: Metadata): (r: string)
    ensures r != ""
    ensures meta.rating != "" ==> r == meta.rating
    ensures meta.rating == "" && NoRatingParses(e, content) ==> r == NoRatings
  {
    if meta.rating != "" then meta.rating
    else FirstSome(RatingCandidates(e, content)).GetOr(NoRatings)
  }

  /** A capture that does not parse falls through to the next pattern: the
      first pattern whose capture parses decides. */
  lemma RatingFromFirstParsingPattern(e: Engine, content: string, meta: Metadata, i: nat)
    requires meta.rating == ""
    requires i < |RatingPatterns|
    requires RatingFromMatch(e, e.find(RatingPatterns[i], content)).Some?
    requires forall j :: 0 <= j < i ==> RatingFromMatch(e, e.find(RatingPatterns[j], content)).None?
    ensures ExtractRating(e, content, meta) ==
      e.parseNumber(e.find(RatingPatterns[i], content).value.group1).value
  {
    FirstSomeIsFirst(RatingCandidates(e, content), i);
  }

  // --------------------------------------------------------- review count

  /** What one count pattern contributes: its group 1 verbatim. */
  function Group1(m: Option<Match>): (r: Option<string>)
    ensures r.Some? <==> m.Some? && m.value.group1 != ""
    ensures r.Some? ==> r.value == m.value.group1
  {
    match m
    case Some(x) => if x.group1 != "" then Some(x.group1) else None
    case None => None
  }

  function CountCandidates(e: Engine, content: string): (r: seq<Option<string>>)
    ensures |r| == |CountPatterns|
    ensures forall i :: 0 <= i < |r| ==> r[i] == Group1(e.find(CountPatterns[i], content))
    ensures forall i :: 0 <= i < |r| && r[i].Some? ==> r[i].value != ""
  {
    Map(CountPatterns, p => Group1(e.find(p, content)))
  }

  /** extractNumRatings: the first capture in pattern order, verbatim. */
  function ExtractNumRatings(e: Engine, content: string): (r: string)
    ensures r != ""
    ensures (forall i :: 0 <= i < |CountPatterns| ==> Group1(e.find(CountPatterns[i], content)).None?) ==> r == ZeroRatings
    ensures r != ZeroRatings ==> exists i :: 0 <= i < |CountPatterns| && Group1(e.find(CountPatterns[i], content)) == Some(r)
  {
    FirstSome(CountCandidates(e, content)).GetOr(ZeroRatings)
  }

  lemma NumRatingsFromFirstCapturingPattern(e: Engine, content: string, i: nat)
    requires i < |CountPatterns|
    requires Group1(e.find(CountPatterns[i], content)).Some?
    requires forall j :: 0 <= j < i ==> Group1(e.find(CountPatterns[j], content)).None?
    ensures ExtractNumRatings(e, content) == e.find(CountPatterns[i], content).value.group1
  {
    FirstSomeIsFirst(CountCandidates(e, content), i);
  }

  // ------------------------------------------------------------- discount

  /** What one discount pattern contributes: group 1, else group 2. */
  function DiscountFromMatch(m: Option<Match>): (r: Option<string>)
    ensures r.Some? <==> m.Some? && (m.value.group1 != "" || m.value.group2 != "")
    ensures r.Some? && m.value.group1 != "" ==> r.value == m.value.group1
    ensures r.Some? && m.value.group1 == "" ==> r.value == m.value.group2
  {
    match m
    case Some(x) =>
      if x.group1 != "" then Some(x.group1)
      else if x.group2 != "" then Some(x.group2)
      else None
    case None => None
  }

  function DiscountCandidates(e: Engine, content: string): (r: seq<Option<string>>)
    ensures |r| == |DiscountPatterns|
    ensures forall i :: 0 <= i < |r| ==> r[i] == DiscountFromMatch(e.find(DiscountPatterns[i], content))
    ensures forall i :: 0 <= i < |r| && r[i].Some? ==> r[i].value != ""
  {
    Map(DiscountPatterns, p => DiscountFromMatch(e.find(p, content)))
  }

  /** extractDiscount. */
  function ExtractDiscount(e: Engine, content: string): (r: string)
    ensures r != ""
    ensures (forall i :: 0 <= i < |DiscountPatterns| ==> DiscountFromMatch(e.find(DiscountPatterns[i], content)).None?) ==> r == NoDiscount
  {
    FirstSome(DiscountCandidates(e, content)).GetOr(NoDiscount)
  }

  /** The first pattern with a capture decides, its group 1 preferred over
      its group 2, returned verbatim. */
  lemma DiscountFromFirstCapturingPattern(e: Engine, content: string, i: nat)
    requires i < |DiscountPatterns|
    requires DiscountFromMatch(e.find(DiscountPatterns[i], content)).Some?
    requires forall j :: 0 <= j < i ==> DiscountFromMatch(e.find(DiscountPatterns[j], content)).None?
    ensures var m := e.find(DiscountPatterns[i], content).value;
      ExtractDiscount(e, content) == if m.group1 != "" then m.group1 else m.group2
  {
    FirstSomeIsFirst(DiscountCandidates(e, content), i);
  }
}

=== FILE: scraper.dfy ===
/** The orchestrator: every crawled page becomes one product record built by
    the field extractors; records without the basic fields are dropped; and
    whenever no record survives, or the API key is missing, or the crawl
    fails, the hard-coded catalog is returned instead. */
module Scraper {

  import opened Combinators
  import opened Patterns
  import opened Records
  import opened Catalog
  import opened CatalogShape
  import opened Scalars
  import opened Lists
  import opened ProductInfo
  import opened Images
  import opened Reviews

  /** One crawled page. A missing or falsy string field is "", and a page
      without metadata (`item.metadata || {}`) carries all-empty metadata. */
  datatype Item = Item(url: string, html: string, markdown: string, text: string, metadata: Metadata)

  /** The crawler's answer: a failure (an unsuccessful response or a thrown
      error), or a successful response with its pages (none when the
      response carries no data). */
  datatype Crawl = Failed | Crawled(pages: seq<Item>)

  /** Why the catalog was returned instead of real records. */
  datatype FallbackReason = MissingApiKey | CrawlFailed | NoPages | NoValidProducts

  datatype Outcome = Extracted(records: seq<Product>) | Fallback(reason: FallbackReason)

  /** The text all extractors search: the HTML, a newline, then the markdown
      or, when there is none, the plain text. */
  function PageContent(item: Item): string {
    item.html + "\n" + (if item.markdown != "" then item.markdown else item.text)
  }

  /** The page's own URL, or the requested one when the page has none. */
  function PageLink(item: Item, url: string): string {
    if item.url != "" then item.url else url
  }

  /** One record, built field by field from the page content. */
  function AssembleProduct(e: Engine, item: Item, url: string): (p: Product)
    ensures p.link == PageLink(item, url)
    ensures IsUsable(p)
  {
    var content := PageContent(item);
    var meta := item.metadata;
    Product(
      ExtractTitle(e, content, meta),
      ExtractPrice(e, content, meta),
      ExtractRating(e, content, meta),
      ExtractNumRatings(e, content),
      ExtractDiscount(e, content),
      ExtractBankOffers(e, content),
      ExtractAboutItem(e, content),
      ExtractProductInfo(e, content),
      ExtractProductImages(e, content, meta),
      ExtractManufacturerImages(e, content),
      GenerateReviewSummary(e, content),
      PageLink(item, url))
  }

  /** Every assembled record has the shape of `WellFormed`, whatever the page
      holds. */
  lemma AssembledRecordWellFormed(e: Engine, item: Item, url: string)
    ensures WellFormed(AssembleProduct(e, item, url))
  {
  }

  /** The validity filter: a truthy title and a truthy price, a truthy
      rating or at least one image. */
  predicate IsUsable(p: Product) {
    p.title != "" && (p.price != "" || p.rating != "" || |p.imageUrls| > 0)
  }

  /** The records of a crawl, one per page in page order. */
  function AssembleAll(e: Engine, pages: seq<Item>, url: string): (r: seq<Product>)
    ensures |r| == |pages|
    ensures forall i :: 0 <= i < |r| ==> r[i] == AssembleProduct(e, pages[i], url)
  {
    Map(pages, item => AssembleProduct(e, item, url))
  }

  /** Every record of a crawl is well formed and passes the validity filter. */
  lemma AssembledRecordsUsable(e: Engine, pages: seq<Item>, url: string)
    ensures forall p :: p in AssembleAll(e, pages, url) ==> WellFormed(p) && IsUsable(p)
  {
    var all := AssembleAll(e, pages, url);
    forall p | p in all
      ensures WellFormed(p) && IsUsable(p)
    {
      var j :| 0 <= j < |all| && all[j] == p;
      assert p == AssembleProduct(e, pages[j], url);
      AssembledRecordWellFormed(e, pages[j], url);
    }
  }

  /** The records of a crawl that pass the validity filter, in page order. */
  function ValidRecords(e: Engine, pages: seq<Item>, url: string): (r: seq<Product>)
    ensures forall i :: 0 <= i < |r| ==> IsUsable(r[i]) && WellFormed(r[i])
  {
    AssembledRecordsUsable(e, pages, url);
    Filter(AssembleAll(e, pages, url), IsUsable)
  }

  /** What the pipeline decides, before the fallback is substituted. */
  function ScrapeOutcome(e: Engine, apiKey: string, crawl: Crawl, url: string): (o: Outcome)
    ensures o.Extracted? ==> |o.records| > 0
    ensures o.Extracted? ==> forall i :: 0 <= i < |o.records| ==> IsUsable(o.records[i]) && WellFormed(o.records[i])
  {
    if apiKey == "" then Fallback(MissingApiKey)
    else
      match crawl
      case Failed => Fallback(CrawlFailed)
      case Crawled(pages) =>
        if |pages| == 0 then Fallback(NoPages)
        else
          var valid := ValidRecords(e, pages, url);
          if |valid| > 0 then Extracted(valid) else Fallback(NoValidProducts)
  }

  /** scrapeAmazonProduct: the surviving records, or the catalog. */
  function ScrapeAmazonProduct(e: Engine, apiKey: string, crawl: Crawl, url: string): (r: seq<Product>)
    ensures |r| > 0
    ensures forall i :: 0 <= i < |r| ==> WellFormed(r[i])
    ensures ScrapeOutcome(e, apiKey, crawl, url).Fallback? ==> r == MockTvData
    ensures ScrapeOutcome(e, apiKey, crawl, url).Extracted? ==> r == ScrapeOutcome(e, apiKey, crawl, url).records
  {
    MockTvDataWellFormed();
    match ScrapeOutcome(e, apiKey, crawl, url)
    case Extracted(records) => records
    case Fallback(_) => MockTvData
  }

  /** Every assembled record passes the validity filter, so the filter
      keeps the whole crawl. */
  lemma {:induction false} FilterKeepsCrawl(e: Engine, pages: seq<Item>, url: string)
    ensures ValidRecords(e, pages, url) == AssembleAll(e, pages, url)
  {
    var all := AssembleAll(e, pages, url);
    forall i | 0 <= i < |all|
      ensures IsUsable(all[i])
    {
      assert all[i] == AssembleProduct(e, pages[i], url);
    }
    FilterKeepsAll(all, IsUsable);
  }

  /** A crawl with pages never falls back for want of valid records: all
      its records are returned, one per page, in page order, each linked to
      its page. */
  lemma CrawledPagesAllReturned(e: Engine, apiKey: string, pages: seq<Item>, url: string)
    requires apiKey != "" && |pages| > 0
    ensures ScrapeOutcome(e, apiKey, Crawled(pages), url) == Extracted(AssembleAll(e, pages, url))
    ensures var r := ScrapeAmazonProduct(e, apiKey, Crawled(pages), url);
      && |r| == |pages|
      && forall i :: 0 <= i < |r| ==> r[i] == AssembleProduct(e, pages[i], url) && r[i].link == PageLink(pages[i], url)
  {
    FilterKeepsCrawl(e, pages, url);
  }

  /** Each failure is reported under its own reason, checked in order: the
      key first, then the crawl, then its pages. */
  lemma FallbackReasons(e: Engine, apiKey: string, crawl: Crawl, url: string)
    ensures ScrapeOutcome(e, apiKey, crawl, url) == Fallback(MissingApiKey) <==> apiKey == ""
    ensures ScrapeOutcome(e, apiKey, crawl, url) == Fallback(CrawlFailed) <==> apiKey != "" && crawl.Failed?
    ensures ScrapeOutcome(e, apiKey, crawl, url) == Fallback(NoPages) <==>
      apiKey != "" && crawl.Crawled? && |crawl.pages| == 0
  {
  }

  /** The catalog is returned exactly on the failure paths: a missing key, a
      failed crawl or a crawl without pages. Falling back for want of valid
      records never happens. */
  lemma FallbackOnlyOnFailure(e: Engine, apiKey: string, crawl: Crawl, url: string)
    ensures ScrapeOutcome(e, apiKey, crawl, url).Fallback? <==>
      apiKey == "" || crawl.Failed? || |crawl.pages| == 0
    ensures ScrapeOutcome(e, apiKey, crawl, url) != Fallback(NoValidProducts)
    ensures apiKey == "" || crawl.Failed? || |crawl.pages| == 0 ==>
      ScrapeAmazonProduct(e, apiKey, crawl, url) == MockTvData
  {
    if apiKey != "" && crawl.Crawled? && |crawl.pages| > 0 {
      FilterKeepsCrawl(e, crawl.pages, url);
    }
  }
}

=== FILE: strings.dfy ===
/** The JavaScript string operations the extractors use that are simple enough
    to state exactly: `length` (UTF-16 code units), `includes`, `trim`,
    global replacement of markup tags, `split` on a literal alternation or on
    `\.\s*`, `join`, and lower-casing of ASCII letters. Regular expressions
    with real search behaviour are NOT modelled here; see module Patterns. */
module Strings {

  import opened Combinators

  /** JavaScript's `String.prototype.length`: characters outside the Basic
      Multilingual Plane count as two UTF-16 code units. */
  function Utf16Length(s: string): (n: nat)
    ensures |s| <= n <= 2 * |s|
    decreases |s|
  {
    if |s| == 0 then 0
    else (if s[0] as int > 0xFFFF then 2 else 1) + Utf16Length(s[1..])
  }

  /** `p` is a prefix of `s`. */
  predicate StartsWith(s: string, p: string) {
    |p| <= |s| && s[..|p|] == p
  }

  /** JavaScript's case-sensitive `String.prototype.includes`. */
  predicate Contains(s: string, sub: string)
    decreases |s|
  {
    StartsWith(s, sub) || (|s| > 0 && Contains(s[1..], sub))
  }

  /** `sub` occurs in `s` starting at position `i`. */
  predicate OccursAt(s: string, sub: string, i: nat) {
    i + |sub| <= |s| && s[i..i + |sub|] == sub
  }

  /** `includes` holds exactly when `sub` occurs at some position of `s`. */
  lemma {:induction false} ContainsIffOccurs(s: string, sub: string)
    ensures Contains(s, sub) <==> exists i: nat :: OccursAt(s, sub, i)
    decreases |s|
  {
    if StartsWith(s, sub) {
      assert OccursAt(s, sub, 0);
    }
    if |s| > 0 {
      ContainsIffOccurs(s[1..], sub);
      if Contains(s[1..], sub) {
        var i: nat :| OccursAt(s[1..], sub, i);
        assert s[1..][i..i + |sub|] == s[i + 1..i + 1 + |sub|];
        assert OccursAt(s, sub, i + 1);
      }
      if i: nat :| OccursAt(s, sub, i) {
        if i == 0 {
          assert StartsWith(s, sub);
        } else {
          assert s[1..][i - 1..i - 1 + |sub|] == s[i..i + |sub|];
          assert OccursAt(s[1..], sub, i - 1);
        }
      }
    } else if i: nat :| OccursAt(s, sub, i) {
      assert |sub| == 0 && StartsWith(s, sub);
    }
  }

  /** A text contains whatever a suffix of it contains. */
  lemma {:induction false} ContainsFrom(s: string, sub: string, i: nat)
    requires i <= |s| && Contains(s[i..], sub)
    ensures Contains(s, sub)
    decreases i
  {
    if i > 0 {
      assert s[1..][i - 1..] == s[i..];
      ContainsFrom(s[1..], sub, i - 1);
    }
  }

  /** A text lacking one character of `sub` does not contain `sub`. */
  lemma {:induction false} MissingCharNotContained(s: string, sub: string, j: nat)
    requires j < |sub| && sub[j] !in s
    ensures !Contains(s, sub)
    decreases |s|
  {
    if |sub| <= |s| {
      assert s[..|sub|][j] == s[j];
    }
    if |s| > 0 {
      assert sub[j] !in s[1..];
      MissingCharNotContained(s[1..], sub, j);
    }
  }

  /** The characters `trim` removes and `\s` matches: ECMAScript WhiteSpace
      and LineTerminator. */
  predicate IsSpace(c: char) {
    || c == ' ' || c == '\t' || c == '\n' || c == '\r'
    || c == '\U{000B}' || c == '\U{000C}' || c == '\U{00A0}' || c == '\U{1680}'
    || ('\U{2000}' <= c <= '\U{200A}')
    || c == '\U{2028}' || c == '\U{2029}' || c == '\U{202F}' || c == '\U{205F}'
    || c == '\U{3000}' || c == '\U{FEFF}'
  }

  /** Number of whitespace characters at the start of `s`. */
  function LeadingSpaces(s: string): (n: nat)
    ensures n <= |s|
    ensures forall k :: 0 <= k < n ==> IsSpace(s[k])
    ensures n < |s| ==> !IsSpace(s[n])
    decreases |s|
  {
    if |s| > 0 && IsSpace(s[0]) then 1 + LeadingSpaces(s[1..]) else 0
  }

  /** Number of whitespace characters at the end of `s`. */
  function TrailingSpaces(s: string): (n: nat)
    ensures n <= |s|
    ensures forall k :: |s| - n <= k < |s| ==> IsSpace(s[k])
    ensures n < |s| ==> !IsSpace(s[|s| - n - 1])
    decreases |s|
  {
    if |s| > 0 && IsSpace(s[|s| - 1]) then 1 + TrailingSpaces(s[..|s| - 1]) else 0
  }

  /** JavaScript's `String.prototype.trim`. */
  function Trim(s: string): (r: string)
    ensures LeadingSpaces(s) + |r| <= |s|
    ensures r == s[LeadingSpaces(s)..LeadingSpaces(s) + |r|]
    ensures forall k :: LeadingSpaces(s) + |r| <= k < |s| ==> IsSpace(s[k])
    ensures r == "" <==> forall k :: 0 <= k < |s| ==> IsSpace(s[k])
    ensures r != "" ==> !IsSpace(r[0]) && !IsSpace(r[|r| - 1])
  {
    var t := s[LeadingSpaces(s)..];
    t[..|t| - TrailingSpaces(t)]
  }

  /** Trimming twice changes nothing more. */
  lemma TrimIdempotent(s: string)
    ensures Trim(Trim(s)) == Trim(s)
  {
    var r := Trim(s);
    if r != "" {
      assert LeadingSpaces(r) == 0;
      assert TrailingSpaces(r) == 0;
    }
  }

  /** Position of the first `>` in `s` at or after `from`. */
  function CloseAngle(s: string, from: nat): (r: Option<nat>)
    ensures r.Some? ==> from <= r.value < |s| && s[r.value] == '>'
    ensures r.Some? ==> forall k :: from <= k < r.value ==> s[k] != '>'
    ensures r.None? ==> forall k :: from <= k < |s| ==> s[k] != '>'
    decreases |s| - from
  {
    if from >= |s| then None
    else if s[from] == '>' then Some(from)
    else CloseAngle(s, from + 1)
  }

  /** No `<` is followed, anywhere later, by a `>`: no markup tag is left. */
  ghost predicate NoTagLeft(s: string) {
    forall i, j :: 0 <= i < j < |s| && s[i] == '<' ==> s[j] != '>'
  }

  /** `s.replace(/<[^>]*>/g, repl)` when `nonEmpty` is false, and
      `s.replace(/<[^>]+>/g, repl)` when it is true: scanning left to right,
      a `<` together with everything up to the next `>` is replaced by `repl`
      (with `nonEmpty`, only when at least one character lies between them). */
  function ReplaceTags(s: string, nonEmpty: bool, repl: string): (r: string)
    ensures (forall k :: 0 <= k < |s| ==> s[k] != '<') ==> r == s
    ensures (forall k :: 0 <= k < |s| ==> s[k] != '>') && '>' !in repl ==> '>' !in r
    ensures !nonEmpty && '<' !in repl && '>' !in repl ==> NoTagLeft(r)
    decreases |s|
  {
    if |s| == 0 then ""
    else if s[0] == '<' && CloseAngle(s, 1).Some? && (!nonEmpty || CloseAngle(s, 1).value > 1) then
      repl + ReplaceTags(s[CloseAngle(s, 1).value + 1..], nonEmpty, repl)
    else
      [s[0]] + ReplaceTags(s[1..], nonEmpty, repl)
  }

  /** Text before the first `<` passes through tag replacement unchanged. */
  lemma {:induction false} ReplaceTagsKeepsText(x: string, t: string, nonEmpty: bool, repl: string)
    requires '<' !in x
    ensures ReplaceTags(x + t, nonEmpty, repl) == x + ReplaceTags(t, nonEmpty, repl)
    decreases |x|
  {
    if |x| == 0 {
      assert x + t == t;
    } else {
      assert (x + t)[0] == x[0] && (x + t)[1..] == x[1..] + t;
      ReplaceTagsKeepsText(x[1..], t, nonEmpty, repl);
      assert [x[0]] + (x[1..] + ReplaceTags(t, nonEmpty, repl)) == x + ReplaceTags(t, nonEmpty, repl);
    }
  }

  /** A tag `<y>` (with something between the brackets for the `+` variant)
      becomes the replacement, and scanning resumes right after its `>`. */
  lemma ReplaceTagsDropsTag(y: string, t: string, nonEmpty: bool, repl: string)
    requires '>' !in y && (nonEmpty ==> y != "")
    ensures ReplaceTags("<" + y + ">" + t, nonEmpty, repl) == repl + ReplaceTags(t, nonEmpty, repl)
  {
    var s := "<" + y + ">" + t;
    assert s[0] == '<' && s[|y| + 1] == '>';
    assert forall k :: 1 <= k < |y| + 1 ==> s[k] == y[k - 1];
    assert CloseAngle(s, 1).Some? && CloseAngle(s, 1).value == |y| + 1;
    assert s[|y| + 2..] == t;
  }

  /** `s.replace(/<[^>]*>/g, '').trim()` (or the `+` variant): the cleaning the
      extractors apply to every fragment and list item. */
  function Clean(s: string, nonEmpty: bool): string {
    Trim(ReplaceTags(s, nonEmpty, ""))
  }

  /** The separator of a `split` call: either an alternation of literals such
      as `\n|•|<li>|<br>`, or the sentence separator `\.\s*` (a period and
      the whitespace after it). */
  datatype Delimiter = AnyOf(literals: seq<string>) | PeriodThenSpaces

  /** Length of the first non-empty literal of `lits` that starts `s`, or 0. */
  function LiteralAt(s: string, lits: seq<string>): (n: nat)
    ensures n <= |s|
    ensures n > 0 ==> exists i :: 0 <= i < |lits| && lits[i] == s[..n]
    decreases |lits|
  {
    if |lits| == 0 then 0
    else if |lits[0]| > 0 && StartsWith(s, lits[0]) then |lits[0]|
    else LiteralAt(s, lits[1..])
  }

  /** Length of the separator occurrence that starts `s`, or 0 if none does. */
  function DelimiterAt(s: string, d: Delimiter): (n: nat)
    ensures n <= |s|
    ensures d.PeriodThenSpaces? ==> (n > 0 <==> |s| > 0 && s[0] == '.')
  {
    match d
    case AnyOf(lits) => LiteralAt(s, lits)
    case PeriodThenSpaces => if |s| > 0 && s[0] == '.' then 1 + LeadingSpaces(s[1..]) else 0
  }

  /** JavaScript's `String.prototype.split` with a separator that never
      matches the empty string: the pieces between successive separator
      occurrences, found left to right. */
  function Split(s: string, d: Delimiter): (r: seq<string>)
    ensures |r| >= 1
    decreases |s|
  {
    if |s| == 0 then [""]
    else if DelimiterAt(s, d) > 0 then [""] + Split(s[DelimiterAt(s, d)..], d)
    else
      var rest := Split(s[1..], d);
      [[s[0]] + rest[0]] + rest[1..]
  }

  /** JavaScript's `Array.prototype.join`. */
  function Join(pieces: seq<string>, sep: string): string
    decreases |pieces|
  {
    if |pieces| == 0 then ""
    else if |pieces| == 1 then pieces[0]
    else pieces[0] + sep + Join(pieces[1..], sep)
  }

  /** The separator occurrences `Split` cuts at, in order: the text each
      one spans. */
  function Cuts(s: string, d: Delimiter): (r: seq<string>)
    ensures |r| + 1 == |Split(s, d)|
    ensures forall i :: 0 <= i < |r| ==> |r[i]| > 0
    ensures d.AnyOf? ==> forall i :: 0 <= i < |r| ==> r[i] in d.literals
    decreases |s|
  {
    if |s| == 0 then []
    else if DelimiterAt(s, d) > 0 then [s[..DelimiterAt(s, d)]] + Cuts(s[DelimiterAt(s, d)..], d)
    else Cuts(s[1..], d)
  }

  /** Every sentence separator cut is a period followed only by white space. */
  lemma {:induction false} PeriodCutsShape(s: string)
    ensures forall i :: 0 <= i < |Cuts(s, PeriodThenSpaces)| ==> PeriodRun(Cuts(s, PeriodThenSpaces)[i])
    decreases |s|
  {
    var d := PeriodThenSpaces;
    if |s| == 0 {
    } else if DelimiterAt(s, d) > 0 {
      var n := DelimiterAt(s, d);
      PeriodCutsShape(s[n..]);
      PeriodRunAtFront(s);
      assert Cuts(s, d) == [s[..n]] + Cuts(s[n..], d);
    } else {
      PeriodCutsShape(s[1..]);
    }
  }

  /** A period followed only by white space. */
  predicate PeriodRun(c: string) {
    |c| > 0 && c[0] == '.' && forall k :: 1 <= k < |c| ==> IsSpace(c[k])
  }

  /** The separator at the front of a text starting with a period is a
      period run. */
  lemma PeriodRunAtFront(s: string)
    requires |s| > 0 && s[0] == '.'
    ensures PeriodRun(s[..DelimiterAt(s, PeriodThenSpaces)])
  {
    var n := DelimiterAt(s, PeriodThenSpaces);
    assert forall k :: 1 <= k < n ==> s[..n][k] == s[1..][k - 1];
  }

  /** The pieces with the cuts put back between them. */
  function Interleave(pieces: seq<string>, cuts: seq<string>): string
    requires |pieces| == |cuts| + 1
    decreases |cuts|
  {
    if |cuts| == 0 then pieces[0]
    else pieces[0] + cuts[0] + Interleave(pieces[1..], cuts[1..])
  }

  /** Nothing is lost by splitting: the pieces with the separators they were
      cut at put back between them are the original text. */
  lemma {:induction false} SplitRoundTrip(s: string, d: Delimiter)
    ensures Interleave(Split(s, d), Cuts(s, d)) == s
    decreases |s|
  {
    if |s| == 0 {
    } else if DelimiterAt(s, d) > 0 {
      var n := DelimiterAt(s, d);
      SplitRoundTrip(s[n..], d);
      RoundTripAtCut(s, n, Split(s[n..], d), Cuts(s[n..], d));
    } else {
      SplitRoundTrip(s[1..], d);
      RoundTripPastChar(s, d);
    }
  }

  /** The inductive step of `SplitRoundTrip` when a separator of length `n`
      starts the text: an empty piece, the cut, then the rest. */
  lemma RoundTripAtCut(s: string, n: nat, rest: seq<string>, restCuts: seq<string>)
    requires 0 < n <= |s| && |rest| == |restCuts| + 1
    requires Interleave(rest, restCuts) == s[n..]
    ensures Interleave([""] + rest, [s[..n]] + restCuts) == s
  {
    InterleaveAtCut(s[..n], rest, restCuts);
    assert s == s[..n] + s[n..];
  }

  /** The inductive step of `SplitRoundTrip` when no separator starts the text. */
  lemma RoundTripPastChar(s: string, d: Delimiter)
    requires |s| > 0 && DelimiterAt(s, d) == 0
    requires Interleave(Split(s[1..], d), Cuts(s[1..], d)) == s[1..]
    ensures Interleave(Split(s, d), Cuts(s, d)) == s
  {
    var rest := Split(s[1..], d);
    assert Split(s, d) == [[s[0]] + rest[0]] + rest[1..];
    assert Cuts(s, d) == Cuts(s[1..], d);
    InterleaveFirst([s[0]], rest, Cuts(s[1..], d));
    assert s == [s[0]] + s[1..];
  }

  /** An empty first piece followed by a cut contributes just the cut. */
  lemma InterleaveAtCut(cut: string, pieces: seq<string>, cuts: seq<string>)
    requires |pieces| == |cuts| + 1
    ensures Interleave([""] + pieces, [cut] + cuts) == cut + Interleave(pieces, cuts)
  {
    assert ([""] + pieces)[1..] == pieces && ([cut] + cuts)[1..] == cuts;
    assert "" + cut == cut;
  }

  /** Growing the first piece at its front grows the interleaving likewise. */
  lemma InterleaveFirst(c: string, pieces: seq<string>, cuts: seq<string>)
    requires |pieces| == |cuts| + 1
    ensures Interleave([c + pieces[0]] + pieces[1..], cuts) == c + Interleave(pieces, cuts)
  {
    var ps := [c + pieces[0]] + pieces[1..];
    assert ps[1..] == pieces[1..];
  }

  /** The first piece is a prefix of the text. */
  lemma {:induction false} FirstPiecePrefix(s: string, d: Delimiter)
    ensures StartsWith(s, Split(s, d)[0])
    decreases |s|
  {
    if |s| > 0 && DelimiterAt(s, d) == 0 {
      FirstPiecePrefix(s[1..], d);
    }
  }

  /** When no literal is found at the front, none of them starts the text. */
  lemma {:induction false} NoLiteralAt(s: string, lits: seq<string>)
    requires LiteralAt(s, lits) == 0
    ensures forall j :: 0 <= j < |lits| && |lits[j]| > 0 ==> !StartsWith(s, lits[j])
    decreases |lits|
  {
    if |lits| > 0 {
      NoLiteralAt(s, lits[1..]);
      assert forall j :: 1 <= j < |lits| ==> lits[j] == lits[1..][j - 1];
    }
  }

  /** Splitting on an alternation of literals leaves none of them in any
      piece, and yields at most one piece more than the text has characters. */
  lemma {:induction false} SplitPiecesAvoidLiterals(s: string, lits: seq<string>)
    ensures |Split(s, AnyOf(lits))| <= |s| + 1
    ensures forall i, j :: 0 <= i < |Split(s, AnyOf(lits))| && 0 <= j < |lits| && |lits[j]| > 0 ==>
      !Contains(Split(s, AnyOf(lits))[i], lits[j])
    decreases |s|
  {
    var d := AnyOf(lits);
    if |s| == 0 {
    } else if DelimiterAt(s, d) > 0 {
      SplitPiecesAvoidLiterals(s[DelimiterAt(s, d)..], lits);
    } else {
      var rest := Split(s[1..], d);
      SplitPiecesAvoidLiterals(s[1..], lits);
      FirstPiecePrefix(s[1..], d);
      NoLiteralAt(s, lits);
      var first := [s[0]] + rest[0];
      assert first == s[..|first|];
      forall j | 0 <= j < |lits| && |lits[j]| > 0
        ensures !Contains(first, lits[j])
      {
        assert first[1..] == rest[0];
      }
    }
  }

  /** No sentence produced by splitting on `\.\s*` contains a period. */
  lemma {:induction false} SentencesHaveNoPeriod(s: string)
    ensures forall i :: 0 <= i < |Split(s, PeriodThenSpaces)| ==> '.' !in Split(s, PeriodThenSpaces)[i]
    decreases |s|
  {
    var d := PeriodThenSpaces;
    if |s| == 0 {
    } else if DelimiterAt(s, d) > 0 {
      SentencesHaveNoPeriod(s[DelimiterAt(s, d)..]);
    } else {
      SentencesHaveNoPeriod(s[1..]);
      var rest := Split(s[1..], d);
      assert s[0] != '.';
      assert '.' !in [s[0]] + rest[0];
    }
  }

  /** `t` is empty or does not start with white space: what follows a `\.\s*`
      separator, which swallows every space after the period. */
  predicate Unspaced(t: string) {
    t == "" || !IsSpace(t[0])
  }

  /** Every sentence after the first starts where a separator's spaces end. */
  lemma {:induction false} SentencesStartUnspaced(s: string)
    ensures forall k :: 1 <= k < |Split(s, PeriodThenSpaces)| ==> Unspaced(Split(s, PeriodThenSpaces)[k])
    decreases |s|
  {
    var d := PeriodThenSpaces;
    if |s| == 0 {
    } else if DelimiterAt(s, d) > 0 {
      var n := DelimiterAt(s, d);
      var rest := Split(s[n..], d);
      SentencesStartUnspaced(s[n..]);
      assert Split(s, d) == [""] + rest;
      FirstSentenceUnspaced(s[n..]);
    } else {
      SentencesStartUnspaced(s[1..]);
    }
  }

  /** What directly follows a separator is unspaced, and so is the sentence
      it begins. */
  lemma FirstSentenceUnspaced(t: string)
    requires exists s :: |s| > 0 && s[0] == '.' && t == s[DelimiterAt(s, PeriodThenSpaces)..]
    ensures Unspaced(Split(t, PeriodThenSpaces)[0])
  {
    var s :| |s| > 0 && s[0] == '.' && t == s[DelimiterAt(s, PeriodThenSpaces)..];
    var n := LeadingSpaces(s[1..]);
    if |t| > 0 {
      assert t[0] == s[1..][n];
    }
  }

  /** A period-free text in front of `t` becomes the front of `t`'s first
      sentence. */
  lemma {:induction false} SplitPastSentence(x: string, t: string)
    requires '.' !in x
    ensures Split(x + t, PeriodThenSpaces) ==
      [x + Split(t, PeriodThenSpaces)[0]] + Split(t, PeriodThenSpaces)[1..]
    decreases |x|
  {
    var d := PeriodThenSpaces;
    if |x| == 0 {
      assert x + t == t;
      assert x + Split(t, d)[0] == Split(t, d)[0];
    } else {
      var s := x + t;
      assert s[0] == x[0] && s[0] != '.';
      assert s[1..] == x[1..] + t;
      SplitPastSentence(x[1..], t);
      assert [x[0]] + (x[1..] + Split(t, d)[0]) == x + Split(t, d)[0];
    }
  }

  /** The joining separator `". "` in front of an unspaced text opens one
      empty sentence and nothing more. */
  lemma SplitAfterSeparator(t: string)
    requires Unspaced(t)
    ensures Split(". " + t, PeriodThenSpaces) == [""] + Split(t, PeriodThenSpaces)
  {
    var s := ". " + t;
    assert s[1..] == " " + t && (" " + t)[1..] == t;
    assert LeadingSpaces(s[1..]) == 1;
    assert s[2..] == t;
  }

  /** Number of occurrences of `c` in `s`. */
  function Occurrences(s: string, c: char): nat
    decreases |s|
  {
    if |s| == 0 then 0 else (if s[0] == c then 1 else 0) + Occurrences(s[1..], c)
  }

  lemma {:induction false} OccurrencesAppend(a: string, b: string, c: char)
    ensures Occurrences(a + b, c) == Occurrences(a, c) + Occurrences(b, c)
    decreases |a|
  {
    if |a| == 0 {
      assert a + b == b;
    } else {
      assert (a + b)[1..] == a[1..] + b;
      OccurrencesAppend(a[1..], b, c);
    }
  }

  lemma {:induction false} OccurrencesAbsent(s: string, c: char)
    requires c !in s
    ensures Occurrences(s, c) == 0
    decreases |s|
  {
    if |s| > 0 {
      OccurrencesAbsent(s[1..], c);
    }
  }

  /** Splitting on `\.\s*` yields one sentence more than there are periods:
      every period starts a separator, and the spaces it swallows hold none. */
  lemma {:induction false} SentenceCount(s: string)
    ensures |Split(s, PeriodThenSpaces)| == Occurrences(s, '.') + 1
    decreases |s|
  {
    var d := PeriodThenSpaces;
    if |s| == 0 {
    } else if s[0] == '.' {
      var n := DelimiterAt(s, d);
      assert |Split(s, d)| == 1 + |Split(s[n..], d)|;
      SentenceCount(s[n..]);
      PeriodRunOccurrences(s);
    } else {
      var rest := Split(s[1..], d);
      assert |Split(s, d)| == |rest|;
      SentenceCount(s[1..]);
    }
  }

  /** A period and the white space after it hold exactly one period. */
  lemma PeriodRunOccurrences(s: string)
    requires |s| > 0 && s[0] == '.'
    ensures Occurrences(s, '.') == 1 + Occurrences(s[DelimiterAt(s, PeriodThenSpaces)..], '.')
  {
    var n := DelimiterAt(s, PeriodThenSpaces);
    var run := s[1..n];
    assert '.' !in run by {
      assert forall k :: 0 <= k < n - 1 ==> IsSpace(s[1..][k]);
      assert forall k :: 0 <= k < n - 1 ==> run[k] == s[1..][k];
    }
    OccurrencesAbsent(run, '.');
    assert s[1..] == run + s[n..];
    OccurrencesAppend(run, s[n..], '.');
  }

  /** Joining pieces that do not contain `c` with a separator that contains
      it once yields one `c` per gap between pieces. */
  lemma {:induction false} JoinOccurrences(ps: seq<string>, sep: string, c: char)
    requires |ps| >= 1
    requires forall i :: 0 <= i < |ps| ==> c !in ps[i]
    requires Occurrences(sep, c) == 1
    ensures Occurrences(Join(ps, sep), c) == |ps| - 1
    decreases |ps|
  {
    OccurrencesAbsent(ps[0], c);
    if |ps| > 1 {
      JoinOccurrences(ps[1..], sep, c);
      OccurrencesAppend(ps[0], sep, c);
      OccurrencesAppend(ps[0] + sep, Join(ps[1..], sep), c);
    }
  }

  /** ASCII lower-casing of one character. */
  function LowerChar(c: char): char {
    if 'A' <= c <= 'Z' then (c as int + 32) as char else c
  }

  /** `toLowerCase` on the ASCII letters (other characters are kept). */
  function AsciiLower(s: string): (r: string)
    ensures |r| == |s|
  {
    seq(|s|, i requires 0 <= i < |s| => LowerChar(s[i]))
  }
}
